=== FILE: README.md ===
# Pexels asset source — a Dafny model

The Pexels asset source plugs the Pexels photo API into the Neos media
browser. The media browser pages through photos with a query object
(limit, offset, search term) and walks the result with an iterator. This
project models that pipeline as pure functions over explicit state, and
proves what each step promises:

- **`PexelsApi`** (`PexelsClient`) builds the request parameters and the
  request identifier `per_page_page[_query]`. A page already in the page
  cache is returned as is, with no request. On a miss, a blank API key is a
  configuration error raised before any request. Otherwise one request goes
  out through the transport, which is the parameter `fetch`. A decoded body
  is normalised (missing `photos` is an empty page, missing `total_results`
  is the photo count). Every photo with an id is then remembered under the
  string form of that id, so `findByIdentifier` can find it later. The
  client state is `Client(apiKey, pageCache, photoCache, requests)`, where
  `requests` counts how often the transport was called.
- **`PagedResults`** (`PexelsQueryResult`) is one fetched page. It holds the
  records in insertion order under their array keys, the API's total, and
  the position of the one `ArrayIterator` that every reader of the page
  shares.
- **`ProxyQueries`** (`PexelsAssetProxyQuery` state) covers:
  - defaults 20 / 0 / "";
  - getters and setters;
  - the page number `ceil((offset + 1) / limit)`, as an exact integer ceiling;
  - the effective term: the query's own term, unless PHP reads it as false
    (`""` or `"0"`), in which case the default term.
- **`ProxyQueryResults`** (`PexelsAssetProxyQueryResult`) is the cursor. It
  holds a copy of the query and the cache key of its page. Iterator calls
  (`current`, `key`, `next`, `valid`, `rewind`) and array access
  (`offsetExists`, `offsetGet`, `offsetSet`) are forwarded to the shared
  page. `getFirst`, `count`, `getQuery` are modelled too, and
  `toArray`/`offsetUnset` always fail.
- **`ProxyQueryExecution`** covers `execute` and `count` of the query.
- **`ProxyRepository`** (`PexelsAssetProxyRepository`) holds the entry
  points: lookup by identifier, `findAll`, `findBySearchTerm`, `findByTag`,
  `findUntagged` and `countAll`.
- **`AssetProxies`** (`PexelsAssetProxy`) derives every value from one
  photo record:
  - the identifier;
  - the slug cut out of the photo page URL;
  - the label and file name;
  - the image URLs per size;
  - the width and height with PHP's `(int)` defaults;
  - the constant file size and media type;
  - the IPTC properties.
- **`PhpStrings`** models the PHP built-ins these rely on: the `(string)`
  cast of an int, `trim`/`rtrim` with a character list, `str_replace`,
  `end(explode(...))`, `implode`, and falsy strings.

PHP object identity is modelled by reference through the cache. The page
cache never replaces an entry, and a cursor names its page by cache key.
So two cursors over the same page, or a cursor and a later re-execution of
the same query, see one iterator position. An operation that may throw
returns a `Result`, with one `Error` constructor per cause.

Where the code and its documentation differ, the model follows the code:

- The query's `count()` is the number of records on the fetched page, not
  the total the API reports.
- `getFirst()` on an empty page fails. It calls `offsetGet(0)`, and the
  proxy constructor rejects the resulting `null`; it does not return null.
- The label of a photo whose URL is `.../photo/<words>-<id>/` is the words
  with spaces (`SlugOfPhotoPageUrl`). An identifier that occurs inside the
  words is cut out there too. For a URL shaped like
  `.../photo-1234-slug-words` with id 1234, as in the documentation's
  example, the code only cuts out the id and trims dashes at the ends. The
  slug is therefore `photo--slug-words`, the label `photo  slug words` (two
  spaces) and the file name `photo--slug-words.jpg`, not `slug words` and
  `slug-words.jpg`.
- The curated feed `(n, p)` and a search for `""` with `(n, p)` share one
  cache entry, because the query type is not part of the request
  identifier.

## Model

| member | source | states |
|---|---|---|
| PhpStrings.IntToString | Classes/AssetSource/PexelsAssetProxy.php:94-97 | the `(string)` form of an integer reads back to that integer and is in canonical decimal form: "0", or no leading zero, with a minus sign exactly for a negative number |
| PhpStrings.IntToStringUnique | Classes/AssetSource/PexelsAssetProxy.php:94-97 | the `(string)` form is the only canonical decimal string that reads back to the integer |
| PhpStrings.IntToStringInjective | Classes/Api/PexelsClient.php:169 | distinct ids never get the same string key in the by-id cache |
| PhpStrings.Trim | Classes/Api/PexelsClient.php:68 | `trim`'s result is an infix of the input with only list characters before and after it, neither of its ends is in the list, and it is empty exactly when every input character is in the list |
| PhpStrings.TrimRight | Classes/AssetSource/PexelsAssetProxy.php:125 | `rtrim` keeps a prefix, everything it drops is in the list, and the kept part does not end in one |
| PhpStrings.ReplaceAll | Classes/AssetSource/PexelsAssetProxy.php:127 | `str_replace` leaves the subject unchanged for an empty needle or when the needle never occurs, and introduces no characters beyond the subject's and the replacement's |
| PhpStrings.ReplaceAllSkipsPrefix | Classes/AssetSource/PexelsAssetProxy.php:127 | `str_replace` copies a prefix in which no occurrence starts unchanged and carries on after it |
| PhpStrings.ReplaceAllOneChar | Classes/AssetSource/PexelsAssetProxy.php:105 | replacing `-` by a space with `str_replace` is the pointwise character replacement |
| PhpStrings.LastSegment | Classes/AssetSource/PexelsAssetProxy.php:126-127 | `end(explode('/', s))` is a suffix without `/`, preceded by `/` unless it is all of `s` |
| PhpStrings.LastSegmentAfterSeparator | Classes/AssetSource/PexelsAssetProxy.php:126-127 | the last segment of `a/b` with no `/` in `b` is `b` |
| AssetProxies.Identifier | Classes/AssetSource/PexelsAssetProxy.php:94-97 | the identifier is empty exactly when the record has no id, and otherwise is the canonical decimal form of the id (no leading zero) that reads back to it, which `PhpStrings.IntToStringUnique` shows is PHP's `(string)` cast |
| AssetProxies.Slug | Classes/AssetSource/PexelsAssetProxy.php:120-131 | a missing or falsy URL gives no slug; a slug never starts or ends with `-` and has no `/` |
| AssetProxies.Label | Classes/AssetSource/PexelsAssetProxy.php:102-106 | without a slug the label is the identifier; with one it is the slug with every `-` made a space and has no `-` |
| AssetProxies.Filename | Classes/AssetSource/PexelsAssetProxy.php:111-115 | the file name ends in `.jpg` and its stem is the slug, or the identifier when there is no slug |
| AssetProxies.ImageUrl | Classes/AssetSource/PexelsAssetProxy.php:262-269 | the URL stored for the size, or `""` when `src` or the size is missing |
| AssetProxies.ThumbnailUrl | Classes/AssetSource/PexelsAssetProxy.php:165-168 | the thumbnail is the `tiny` image |
| AssetProxies.PreviewUrl | Classes/AssetSource/PexelsAssetProxy.php:170-173 | the preview is the `large` image |
| AssetProxies.OriginalUrl | Classes/AssetSource/PexelsAssetProxy.php:175-178 | the original is the `original` image |
| AssetProxies.Width | Classes/AssetSource/PexelsAssetProxy.php:155-158 | the width field, 0 when missing |
| AssetProxies.Height | Classes/AssetSource/PexelsAssetProxy.php:160-163 | the height field, 0 when missing |
| AssetProxies.FileSize | Classes/AssetSource/PexelsAssetProxy.php:142-145 | always 0 |
| AssetProxies.MediaType | Classes/AssetSource/PexelsAssetProxy.php:147-150 | always `image/jpeg` |
| AssetProxies.IsImported | Classes/AssetSource/PexelsAssetProxy.php:202-205 | imported exactly when an import record was found |
| AssetProxies.LocalAssetIdentifier | Classes/AssetSource/PexelsAssetProxy.php:192-195 | the import record's local identifier, `""` without one |
| AssetProxies.IptcProperties | Classes/AssetSource/PexelsAssetProxy.php:237-247 | exactly the properties `Title` and `CopyrightNotice` |
| AssetProxies.HasIptcProperty | Classes/AssetSource/PexelsAssetProxy.php:214-217 | holds exactly for `Title` and `CopyrightNotice` |
| AssetProxies.IptcProperty | Classes/AssetSource/PexelsAssetProxy.php:226-229 | `Title` is the label, `CopyrightNotice` the rendered notice, any other name `""` |
| AssetProxies.LabelRestoresSlug | Classes/AssetSource/PexelsAssetProxy.php:102-106 | turning the label's spaces back into dashes gives the slug, when the slug had no spaces |
| AssetProxies.CutIdentifier | Classes/AssetSource/PexelsAssetProxy.php:127 | cutting the identifier out of `words-<id>` leaves `words-` when the words do not contain it |
| AssetProxies.SlugOfPhotoPageUrl | Classes/AssetSource/PexelsAssetProxy.php:102-131 | for a photo page URL `<prefix>/<words>-<id>/` the slug is the words back, the label the words with spaces, and the file name the words plus `.jpg` |
| PagedResults.NewPagedResult | Classes/Api/PexelsQueryResult.php:36-41 | a new page holds exactly the given photos in order under keys 0, 1, ..., the given total, and its iterator at position 0 |
| PagedResults.Photos | Classes/Api/PexelsQueryResult.php:46-49 | the stored records in insertion order |
| PagedResults.Count | Classes/AssetSource/PexelsAssetProxyQueryResult.php:210-213 | `getPhotos()->count()` is the number of stored records |
| PagedResults.AdvanceKeepsPage | Classes/Api/PexelsQueryResult.php:62-65 | moving the iterator any number of steps keeps the records and the declared total |
| PagedResults.TotalResultsAsDeclared | Classes/Api/PexelsQueryResult.php:62-65 | `getTotalResults()` is the total the page was built with, after any number of iterator steps and after an `offsetSet` |
| PagedResults.Current | Classes/Api/PexelsQueryResult.php:54-57 | the iterator yields a record exactly when it is valid, and then the record at its position |
| PagedResults.Key | Classes/Api/PexelsQueryResult.php:54-57 | the iterator yields a key exactly when it is valid; on a page as fetched the key is the position |
| PagedResults.Next | Classes/Api/PexelsQueryResult.php:54-57 | a step moves a valid iterator by one and leaves an exhausted one where it is, and keeps the page well formed |
| PagedResults.Rewind | Classes/Api/PexelsQueryResult.php:54-57 | rewinding sets the position to 0 and changes no record |
| PagedResults.IndexOf | Classes/Api/PexelsQueryResult.php:38 | the first slot holding a key, or none when no slot does |
| PagedResults.OffsetGet | Classes/Api/PexelsQueryResult.php:38 | a record is found exactly for an existing key |
| PagedResults.OffsetSet | Classes/Api/PexelsQueryResult.php:38 | after writing key `k` it holds the new record and every other key reads as before; the count grows exactly for a new key; position and total are kept |
| PagedResults.OffsetExistsOnList | Classes/Api/PexelsQueryResult.php:38 | on a page as fetched the existing keys are exactly 0 .. count-1 and key `k` holds photo `k` |
| PagedResults.TraversalVisitsInOrder | Classes/Api/PexelsQueryResult.php:39 | from a rewind, step `n` stands on record `n` under key `n`, and the iterator is valid exactly for `n` below the count |
| PexelsApi.NewClient | Classes/Api/PexelsClient.php:56-60 | a new client has the given key, empty caches and no requests sent |
| PexelsApi.BlankMeansTrimmedEmpty | Classes/Api/PexelsClient.php:68 | a key counts as blank exactly when `trim` leaves nothing of it |
| PexelsApi.RequestParameters | Classes/Api/PexelsClient.php:136-143 | the parameters are `per_page` and `page`, and `query` exactly for a non-empty term |
| PexelsApi.CacheKey | Classes/Api/PexelsClient.php:145 | the request identifier is `per_page_page` or `per_page_page_query` |
| PexelsApi.CacheKeyReadsBack | Classes/Api/PexelsClient.php:145 | a request identifier reads back to the page size, the page and the query it was made from |
| PexelsApi.CacheKeyInjective | Classes/Api/PexelsClient.php:145 | different (page size, page, query) triples never share a cache entry |
| PexelsApi.IdKey | Classes/Api/PexelsClient.php:168-169 | a photo has a by-id key exactly when it has an id, and that key is the proxy's identifier |
| PexelsApi.CachePhotos | Classes/Api/PexelsClient.php:167-171 | every photo with an id is stored under its key, and no key that no photo carries changes |
| PexelsApi.CachePhotosKeepsLast | Classes/Api/PexelsClient.php:167-171 | of several photos with the same id the last one is stored |
| PexelsApi.ProcessResult | Classes/Api/PexelsClient.php:162-174 | missing `photos` is an empty page, missing `total_results` is the photo count, a present total is kept, the iterator starts at 0, and the photos are cached by id |
| PexelsApi.ExecuteQuery | Classes/Api/PexelsClient.php:134-155 | a cached page is returned with no request and no key check; on a miss a blank key fails with no request, otherwise exactly one request with the endpoint, parameters and key; transfer and decode failures cache nothing; a decoded answer is cached under the identifier; cached pages are never replaced |
| PexelsApi.CuratedPage | Classes/Api/PexelsClient.php:92-95 | `curated` is the curated query with no term |
| PexelsApi.SearchPage | Classes/Api/PexelsClient.php:106-109 | `search` is the search query with the term |
| PexelsApi.FindByIdentifier | Classes/Api/PexelsClient.php:116-123 | succeeds exactly for a cached id and returns that record, otherwise fails with not-found; it sends nothing and changes no state |
| PexelsApi.RepeatedQueryIsCached | Classes/Api/PexelsClient.php:147-154 | after a successful query the same query returns the identical result and state, whatever the transport and endpoint |
| PexelsApi.TwoCallsOneRequest | Classes/Api/PexelsClient.php:147-154 | two identical queries from a miss send exactly one request |
| PexelsApi.CuratedSharesEntryWithEmptySearch | Classes/Api/PexelsClient.php:92-109 | once `curated(n, p)` is cached, `search("", n, p)` is served from its entry |
| PexelsApi.FailuresAreNotCached | Classes/Api/PexelsClient.php:147-152 | a failed query leaves no cache entry behind |
| PexelsApi.FetchedPhotosAreFindable | Classes/Api/PexelsClient.php:164-171 | after a successful fetch of a page not yet cached, every photo on the newly cached page that has an id is found by its identifier, the last duplicate on the page winning, and an id neither cached before nor on the page is still not found |
| ProxyQueries.NewQuery | Classes/AssetSource/PexelsAssetProxyQuery.php:29-39 | a new query has limit 20, offset 0 and term `""` |
| ProxyQueries.SetOffset | Classes/AssetSource/PexelsAssetProxyQuery.php:53-64 | the offset reads back and limit and term are unchanged |
| ProxyQueries.SetLimit | Classes/AssetSource/PexelsAssetProxyQuery.php:69-80 | the limit reads back and offset and term are unchanged |
| ProxyQueries.SetSearchTerm | Classes/AssetSource/PexelsAssetProxyQuery.php:85-96 | the term reads back and limit and offset are unchanged |
| ProxyQueries.SettersCommute | Classes/AssetSource/PexelsAssetProxyQuery.php:53-96 | setting a field to its current value changes nothing, and setters of different fields commute |
| ProxyQueries.CeilDiv | Classes/AssetSource/PexelsAssetProxyQuery.php:106 | the result is the ceiling of the rational quotient, for either sign of the divisor |
| ProxyQueries.CeilDivUnique | Classes/AssetSource/PexelsAssetProxyQuery.php:106 | for a divisor of either sign, the ceiling is the only integer with that property |
| ProxyQueries.Page | Classes/AssetSource/PexelsAssetProxyQuery.php:106 | for a positive limit the offset lies in the window of the page: `(page - 1) * limit <= offset < page * limit` |
| ProxyQueries.PageOfNonNegativeOffset | Classes/AssetSource/PexelsAssetProxyQuery.php:106 | for offset >= 0 and limit > 0 the page is `offset div limit + 1`, so at least 1 |
| ProxyQueries.PageWindow | Classes/AssetSource/PexelsAssetProxyQuery.php:106 | every offset in `k * limit .. (k + 1) * limit - 1` is on page `k + 1` |
| ProxyQueries.FirstOffsetOfPage | Classes/AssetSource/PexelsAssetProxyQuery.php:106 | offset `(p - 1) * limit` is on page `p`, and one limit further is page `p + 1` |
| ProxyQueries.EffectiveTerm | Classes/AssetSource/PexelsAssetProxyQuery.php:108 | the query's term unless it is `""` or `"0"`, then the default term |
| ProxyQueries.CuratedExactlyWithoutTerm | Classes/AssetSource/PexelsAssetProxyQuery.php:108-110 | the effective term is empty exactly when the term is falsy and the default is empty; `"0"` behaves like `""` |
| ProxyQueryResults.GetQuery | Classes/AssetSource/PexelsAssetProxyQueryResult.php:52-55 | the query the cursor was made from, as a value of its own |
| ProxyQueryResults.Valid | Classes/AssetSource/PexelsAssetProxyQueryResult.php:123-126 | valid exactly when the position is below the count |
| ProxyQueryResults.Current | Classes/AssetSource/PexelsAssetProxyQueryResult.php:83-92 | a proxy over the record at the position exactly when valid, null otherwise |
| ProxyQueryResults.Key | Classes/AssetSource/PexelsAssetProxyQueryResult.php:111-114 | a key exactly when valid; on a page as fetched the position |
| ProxyQueryResults.Next | Classes/AssetSource/PexelsAssetProxyQueryResult.php:100-103 | moves the shared iterator by one when valid, not past the end; no record, declared total, other page, id cache or request count changes |
| ProxyQueryResults.Rewind | Classes/AssetSource/PexelsAssetProxyQueryResult.php:134-137 | the shared page is the same page with position 0, and no other page, id cache or request count changes |
| ProxyQueryResults.OffsetExists | Classes/AssetSource/PexelsAssetProxyQueryResult.php:151-154 | on a page as fetched, exactly the offsets 0 .. count-1 |
| ProxyQueryResults.OffsetGet | Classes/AssetSource/PexelsAssetProxyQueryResult.php:165-168 | a proxy over the record under an existing key, an undefined-offset failure for any other |
| ProxyQueryResults.GetFirst | Classes/AssetSource/PexelsAssetProxyQueryResult.php:62-65 | `offsetGet(0)`: on a page as fetched it succeeds exactly when the page is non-empty, with the first record |
| ProxyQueryResults.OffsetSet | Classes/AssetSource/PexelsAssetProxyQueryResult.php:182-185 | afterwards `offsetGet(k)` wraps the new record, every other offset reads as before, and the position and the declared total are kept |
| ProxyQueryResults.OffsetUnset | Classes/AssetSource/PexelsAssetProxyQueryResult.php:196-199 | always fails as not implemented |
| ProxyQueryResults.ToArray | Classes/AssetSource/PexelsAssetProxyQueryResult.php:72-75 | always fails as not implemented |
| ProxyQueryResults.Count | Classes/AssetSource/PexelsAssetProxyQueryResult.php:210-213 | the number of records on the page |
| ProxyQueryResults.CountIgnoresPosition | Classes/AssetSource/PexelsAssetProxyQueryResult.php:210-213 | moving the iterator does not change the count |
| ProxyQueryResults.SharedIterator | Classes/Api/PexelsQueryResult.php:54-57 | two cursors over the same page share one position: a step or rewind through either is seen by the other |
| ProxyQueryResults.WalkFromRewind | Classes/AssetSource/PexelsAssetProxyQueryResult.php:83-137 | from a rewind, `n` steps stand on the proxy of record `n` with key `n`, and the cursor is valid exactly for `n` below the count |
| ProxyQueryExecution.Execute | Classes/AssetSource/PexelsAssetProxyQuery.php:104-117 | limit 0 is a division error with no request; otherwise the client is asked for page `ceil((offset + 1) / limit)` of the effective term, curated for an empty term and search otherwise, and success is a cursor over that cached page holding the query |
| ProxyQueryExecution.QueryCount | Classes/AssetSource/PexelsAssetProxyQuery.php:124-127 | the record count of the executed page; it fails exactly when `execute` fails, with the same error, and leaves the same state |
| ProxyQueryExecution.CuratedExactlyWhenNoTerm | Classes/AssetSource/PexelsAssetProxyQuery.php:108-114 | the curated endpoint is chosen exactly when the term is falsy and the default term is empty, the search endpoint otherwise |
| ProxyQueryExecution.ExecuteFetchesPageOfOffset | Classes/AssetSource/PexelsAssetProxyQuery.php:106 | a non-negative offset is fetched as page `offset div limit + 1` |
| ProxyQueryExecution.ReexecuteSharesPage | Classes/AssetSource/PexelsAssetProxyQuery.php:104-117 | once the page a query lands on is cached, executing the query sends nothing, changes no state and gives the cursor over that page, whatever happened since |
| ProxyQueryExecution.ReexecuteAfterNext | Classes/AssetSource/PexelsAssetProxyQuery.php:104-117 | executing a query again after stepping its cursor gives the same cursor and leaves the client as the step left it, so the position is where the first cursor left it |
| ProxyRepository.GetAssetProxy | Classes/AssetSource/PexelsAssetProxyRepository.php:44-47 | succeeds exactly for a cached id, wrapping the cached record, and fails with not-found otherwise |
| ProxyRepository.FindAll | Classes/AssetSource/PexelsAssetProxyRepository.php:62-66 | a successful result holds a fresh default query |
| ProxyRepository.FindBySearchTerm | Classes/AssetSource/PexelsAssetProxyRepository.php:75-80 | a successful result holds a default query with the given term |
| ProxyRepository.FindByTag | Classes/AssetSource/PexelsAssetProxyRepository.php:88-91 | the same as `findAll` for every tag |
| ProxyRepository.FindUntagged | Classes/AssetSource/PexelsAssetProxyRepository.php:98-101 | the same as `findAll` |
| ProxyRepository.CountAll | Classes/AssetSource/PexelsAssetProxyRepository.php:108-111 | always 40000, whatever the state |
| ProxyRepository.FindAllIsFirstPage | Classes/AssetSource/PexelsAssetProxyRepository.php:62-66 | `findAll` is page 1 of 20 of the default term |
| ProxyRepository.FindBySearchTermFallsBack | Classes/AssetSource/PexelsAssetProxyRepository.php:75-80 | a falsy term is `findAll`: the same state, outcome and page; any other term is page 1 of 20 of a search for it, with that search's state and outcome and a cursor over its page |
| ProxyRepository.ListedPhotosCanBeOpened | Classes/AssetSource/PexelsAssetProxyRepository.php:44-66 | when `findAll` fetched its page, every photo with an id on the page its cursor points at can then be opened by its identifier |

## Left out

- HTTP and JSON. The Guzzle client with its proxy, timeout and headers,
  URL encoding by `http_build_query`, and JSON decoding are all left out.
  The transport is the parameter `fetch`, which answers a `Request` with a
  failure, an undecodable body or a decoded `Response`.
- The by-id cache is a plain map. `Classes/Api/PexelsClient.php:45`
  declares it as a cache frontend that the shown code never initialises.
- `PexelsAssetSource` configuration is not modelled; the trimmed default
  search term and the API key are parameters. Its line 52 builds the client
  with one argument where the constructor takes two; that defect is not
  modelled.
- Nothing models the import stream (`getImportStream`). It calls
  `getFileStream`, which the client does not define.
- `getLastModified` reads the clock and is left out.
- The default arguments of `curated`, `search` and `executeQuery` (page
  size 20, page 1; `Classes/Api/PexelsClient.php:92`, `:106` and `:134`)
  have no members of their own. `CuratedPage`, `SearchPage` and
  `ExecuteQuery` take both values, and the only caller in the modelled code,
  `Classes/AssetSource/PexelsAssetProxyQuery.php:111-113`, passes both.
- URIs are plain strings; the `UriFactory` wrapping is left out.
- The copyright notice is an Eel expression over the photographer's name.
  `IptcProperties` takes the rendered notice as a parameter.
- `ImportedAssetRepository` is a database lookup. `IsImported` and
  `LocalAssetIdentifier` take its result as a parameter.
- Record fields are typed, with `None` for a missing field. Not modelled:
  - JSON values of other types and PHP's casts of them (a string id, a
    float width, a non-array photo);
  - array keys other than integers in `offsetExists`, `offsetGet` and
    `offsetSet`, which take any PHP value as the offset.
- `ceil` works on a double in PHP. The model uses the exact integer
  ceiling, which differs only once the quotient is not exact in a double.
  Integer overflow of `offset + 1` is not modelled either.
- `ProxyQueryResults.GetQuery`: the cursor holds the query by value. In
  PHP the result keeps a reference to the query object, so a setter called
  on that object after `execute` shows through `getQuery()`; the model does
  not reflect that.
- `filterByType` is an empty method. The repository has no state for it
  to change, so it has no counterpart.
- Asset-source plumbing is left out: `getAssetSource`, the source's
  identifier and label, and `isReadOnly`.
- `PhpStrings.ReplaceAll`: its contract covers only these cases:
  - an empty needle;
  - a needle that never occurs;
  - the bound on the characters of the result.

  Its general behaviour is pinned down by its body and by
  `ReplaceAllSkipsPrefix` and `ReplaceAllOneChar`, not by a full reference
  definition.
- `AssetProxies.Slug`: its contract states the shape of every slug. The
  exact value is proved only for photo page URLs whose words do not
  contain the identifier (`SlugOfPhotoPageUrl`).
- `ProxyRepository.ListedPhotosCanBeOpened`: stated for a `findAll` that
  fetched its page. If the page was already cached, a record written into it
  with `offsetSet` is in no by-id cache.

=== FILE: asset_proxy.dfy ===
/** PexelsAssetProxy: the read-only view the media library gets over one
    photo record of the Pexels API. Every derived field is a pure function of
    the record; the record itself is never changed. */
module AssetProxies {
  import opened Base
  import opened PhpStrings

  /** One photo record as decoded from the API response. A field that is
      absent (or JSON null) is `None`; `src` maps size names to image URLs. */
  datatype Photo = Photo(
    id: Option<int>,
    url: Option<string>,
    width: Option<int>,
    height: Option<int>,
    photographer: Option<string>,
    src: Option<map<string, string>>)

  /** A proxy wraps one record; building one copies nothing. */
  datatype AssetProxy = AssetProxy(photo: Photo)

  /** Image size names of the Pexels API that the proxy uses. */
  const SizeOriginal := "original"
  const SizeLarge := "large"
  const SizeTiny := "tiny"

  /** The remote identifier: the decimal form of `id`, empty without one. */
  function Identifier(proxy: AssetProxy): (r: string)
    ensures r == "" <==> proxy.photo.id.None?
    ensures proxy.photo.id.Some? ==> ParseInt(r) == Some(proxy.photo.id.value) && CanonicalDecimal(r)
  {
    match proxy.photo.id
    case None => ""
    case Some(i) => IntToString(i)
  }

  /** The name part of the photo page URL: the last path segment after
      trailing slashes are dropped, with the identifier cut out and the
      outer dashes trimmed. A falsy or missing URL gives no slug. */
  function Slug(proxy: AssetProxy): (r: string)
    ensures r == "" || (r[0] != '-' && r[|r| - 1] != '-')
    ensures '/' !in r
    ensures proxy.photo.url.None? || IsFalsy(proxy.photo.url.value) ==> r == ""
  {
    match proxy.photo.url
    case None => ""
    case Some(u) =>
      if IsFalsy(u) then ""
      else
        var segment := LastSegment(TrimRight(u, {'/'}), '/');
        Trim(ReplaceAll(segment, Identifier(proxy), ""), {'-'})
  }

  /** The display label: the slug with dashes turned into spaces, or the
      identifier when there is no slug. */
  function Label(proxy: AssetProxy): (r: string)
    ensures Slug(proxy) == "" ==> r == Identifier(proxy)
    ensures Slug(proxy) != "" ==> r == ReplaceChar(Slug(proxy), '-', ' ') && '-' !in r
  {
    var slug := Slug(proxy);
    if slug != "" then
      ReplaceAllOneChar(slug, '-', ' ');
      ReplaceAll(slug, "-", " ")
    else
      Identifier(proxy)
  }

  /** The file name: the slug, or the identifier without a slug, plus ".jpg". */
  function Filename(proxy: AssetProxy): (r: string)
    ensures |r| >= 4 && r[|r| - 4..] == ".jpg"
    ensures Slug(proxy) != "" ==> r[..|r| - 4] == Slug(proxy)
    ensures Slug(proxy) == "" ==> r[..|r| - 4] == Identifier(proxy)
  {
    var slug := Slug(proxy);
    if slug != "" then slug + ".jpg" else Identifier(proxy) + ".jpg"
  }

  /** The URL of the named size variant, or "" when the record has none. */
  function ImageUrl(proxy: AssetProxy, size: string): (r: string)
    ensures proxy.photo.src.Some? && size in proxy.photo.src.value ==> r == proxy.photo.src.value[size]
    ensures proxy.photo.src.None? || size !in proxy.photo.src.value ==> r == ""
  {
    match proxy.photo.src
    case Some(urls) => if size in urls then urls[size] else ""
    case None => ""
  }

  function ThumbnailUrl(proxy: AssetProxy): (r: string)
    ensures r == ImageUrl(proxy, "tiny")
  {
    ImageUrl(proxy, SizeTiny)
  }

  function PreviewUrl(proxy: AssetProxy): (r: string)
    ensures r == ImageUrl(proxy, "large")
  {
    ImageUrl(proxy, SizeLarge)
  }

  function OriginalUrl(proxy: AssetProxy): (r: string)
    ensures r == ImageUrl(proxy, "original")
  {
    ImageUrl(proxy, SizeOriginal)
  }

  /** `(int)` of the width field: a missing width reads as 0. */
  function Width(proxy: AssetProxy): (r: int)
    ensures proxy.photo.width.Some? ==> r == proxy.photo.width.value
    ensures proxy.photo.width.None? ==> r == 0
  {
    proxy.photo.width.GetOr(0)
  }

  /** `(int)` of the height field: a missing height reads as 0. */
  function Height(proxy: AssetProxy): (r: int)
    ensures proxy.photo.height.Some? ==> r == proxy.photo.height.value
    ensures proxy.photo.height.None? ==> r == 0
  {
    proxy.photo.height.GetOr(0)
  }

  /** The API reports no file size, so every proxy claims 0 bytes. */
  function FileSize(proxy: AssetProxy): (r: int)
    ensures r == 0
  {
    0
  }

  /** Every Pexels photo is served as a JPEG. */
  function MediaType(proxy: AssetProxy): (r: string)
    ensures r == "image/jpeg"
  {
    "image/jpeg"
  }

  /** Import status, given the local asset identifier of the import record
      the host found for this photo, if any. */
  function IsImported(imported: Option<string>): (r: bool)
    ensures r <==> imported.Some?
  {
    imported.Some?
  }

  function LocalAssetIdentifier(imported: Option<string>): (r: string)
    ensures imported.Some? ==> r == imported.value
    ensures imported.None? ==> r == ""
  {
    imported.GetOr("")
  }

  /** The IPTC properties: the label as Title and the already rendered
      copyright notice. */
  function IptcProperties(proxy: AssetProxy, copyrightNotice: string): (r: map<string, string>)
    ensures r.Keys == {"Title", "CopyrightNotice"}
  {
    map["Title" := Label(proxy), "CopyrightNotice" := copyrightNotice]
  }

  function HasIptcProperty(proxy: AssetProxy, copyrightNotice: string, name: string): (r: bool)
    ensures r <==> name == "Title" || name == "CopyrightNotice"
  {
    name in IptcProperties(proxy, copyrightNotice)
  }

  function IptcProperty(proxy: AssetProxy, copyrightNotice: string, name: string): (r: string)
    ensures name == "Title" ==> r == Label(proxy)
    ensures name == "CopyrightNotice" ==> r == copyrightNotice
    ensures !HasIptcProperty(proxy, copyrightNotice, name) ==> r == ""
  {
    var properties := IptcProperties(proxy, copyrightNotice);
    if name in properties then properties[name] else ""
  }

  /** The label gives the slug back when the slug had no spaces. */
  lemma LabelRestoresSlug(proxy: AssetProxy)
    ensures Slug(proxy) != "" && ' ' !in Slug(proxy) ==> ReplaceChar(Label(proxy), ' ', '-') == Slug(proxy)
  {
    if Slug(proxy) != "" && ' ' !in Slug(proxy) {
      ReplaceCharRoundTrip(Slug(proxy), '-', ' ');
    }
  }

  /** No occurrence of the identifier starts in `words + "-"` when the words
      do not contain it: the dash cannot be part of a digit string. */
  lemma NoIdentifierBeforeSuffix(words: string, id: string)
    requires AllDigits(id) && id != ""
    requires forall i :: !OccursAt(words, id, i)
    ensures forall i | 0 <= i < |words + "-"| :: !OccursAt(words + "-" + id, id, i)
  {
    var s := words + "-" + id;
    forall i | 0 <= i < |words + "-"|
      ensures !OccursAt(s, id, i)
    {
      if i + |id| <= |words| {
        assert s[i..i + |id|] == words[i..i + |id|];
        assert !OccursAt(words, id, i);
      } else if i + |id| <= |s| {
        assert s[i..i + |id|][|words| - i] == '-';
        assert IsDigit(id[|words| - i]);
      }
    }
  }

  /** Cutting the identifier out of `words-<id>` leaves `words-`. */
  lemma CutIdentifier(words: string, id: string)
    requires AllDigits(id) && id != ""
    requires forall i :: !OccursAt(words, id, i)
    ensures ReplaceAll(words + "-" + id, id, "") == words + "-"
  {
    NoIdentifierBeforeSuffix(words, id);
    ReplaceAllSkipsPrefix(words + "-", id, id, "");
    assert id[..|id|] == id && id[|id|..] == [];
    assert ReplaceAll(id, id, "") == "";
  }

  lemma TrimTrailingDash(words: string)
    requires words != "" && words[0] != '-' && words[|words| - 1] != '-'
    ensures Trim(words + "-", {'-'}) == words
  {
    assert (words + "-")[..|words|] == words;
    assert TrimRight(words + "-", {'-'}) == words;
  }

  /** The last path segment of `<prefix>/<tail>/` is the tail. */
  lemma LastSegmentOfPageUrl(prefix: string, tail: string)
    requires tail != "" && '/' !in tail
    ensures LastSegment(TrimRight(prefix + "/" + tail + "/", {'/'}), '/') == tail
  {
    var trimmed := prefix + "/" + tail;
    var u := trimmed + "/";
    assert u[..|u| - 1] == trimmed;
    assert trimmed[|trimmed| - 1] == tail[|tail| - 1];
    assert TrimRight(u, {'/'}) == trimmed;
    assert trimmed == prefix + ['/'] + tail;
    LastSegmentAfterSeparator(prefix, tail, '/');
  }

  lemma SlugOfUrl(proxy: AssetProxy, u: string)
    requires proxy.photo.url == Some(u) && !IsFalsy(u)
    ensures Slug(proxy) == Trim(ReplaceAll(LastSegment(TrimRight(u, {'/'}), '/'), Identifier(proxy), ""), {'-'})
  {
  }

  /** Round trip for the URL form of a Pexels photo page,
      `<prefix>/<words>-<id>/`: the slug is the words back, the label has them
      with spaces, and the file name is the words plus ".jpg". */
  lemma SlugOfPhotoPageUrl(proxy: AssetProxy, prefix: string, words: string)
    requires proxy.photo.id.Some? && proxy.photo.id.value >= 0
    requires words != "" && words[0] != '-' && words[|words| - 1] != '-' && '/' !in words
    requires forall i :: !OccursAt(words, Identifier(proxy), i)
    requires proxy.photo.url == Some(prefix + "/" + words + "-" + Identifier(proxy) + "/")
    ensures Slug(proxy) == words
    ensures Label(proxy) == ReplaceChar(words, '-', ' ')
    ensures Filename(proxy) == words + ".jpg"
  {
    var id := Identifier(proxy);
    var tail := words + "-" + id;
    var u := prefix + "/" + tail + "/";
    PageUrlShape(prefix, words, id);
    LastSegmentOfPageUrl(prefix, tail);
    CutIdentifier(words, id);
    TrimTrailingDash(words);
    SlugOfUrl(proxy, u);
  }

  /** The URL `<prefix>/<words>-<id>/` is not falsy, and its tail has no `/`. */
  lemma PageUrlShape(prefix: string, words: string, id: string)
    requires AllDigits(id) && '/' !in words
    ensures '/' !in words + "-" + id
    ensures prefix + "/" + words + "-" + id + "/" == prefix + "/" + (words + "-" + id) + "/"
    ensures !IsFalsy(prefix + "/" + (words + "-" + id) + "/")
  {
    var tail := words + "-" + id;
    assert forall j | 0 <= j < |tail| :: tail[j] != '/';
    assert |prefix + "/" + tail + "/"| >= 2;
  }
}

=== FILE: base.dfy ===
/** Shared wrappers: an optional value, the errors the asset source can raise,
    and a result that carries either a value or one of those errors. */
module Base {

  datatype Option<T> = None | Some(value: T) {
    /** The value, or `default` when there is none (PHP's `??`). */
    function GetOr(default: T): T {
      match this
      case Some(v) => v
      case None => default
    }
  }

  /** The exceptions the modelled code throws, one constructor per cause. */
  datatype Error =
    | ConfigurationError           // the API key is blank after trimming
    | TransferError                // the HTTP request failed or returned a non-success status
    | DecodeError                  // the response body does not decode to a JSON array or object
    | NotFound(identifier: string) // the id was never seen in a fetched page
    | DivisionByZero               // a query with limit 0 was executed
    | UndefinedOffset(offset: int) // a page entry that does not exist was wrapped
    | NotImplemented               // toArray and offsetUnset

  datatype Result<T> = Ok(value: T) | Err(error: Error)
}

=== FILE: client.dfy ===
/** PexelsClient: builds the request for one page of the curated feed or of
    a keyword search, serves a repeated request from a page cache, and on a
    miss fetches, normalises the decoded body and records every photo that
    has an id in a by-id cache. The transport is the parameter `fetch`; the
    `requests` counter says how often it was called. */
module PexelsApi {
  import opened Base
  import opened PhpStrings
  import opened AssetProxies
  import opened PagedResults

  const ApiUrl := "https://api.pexels.com/v1/"

  datatype QueryType = Curated | Search

  /** The endpoint a query type is sent to. */
  function Endpoint(t: QueryType): string {
    match t
    case Curated => ApiUrl + "curated"
    case Search => ApiUrl + "search"
  }

  /** One query-string parameter, before URL encoding. */
  datatype Param = Param(name: string, value: string)

  /** What the transport is asked for: a GET of `endpoint` with `params`,
      sending the API key as the Authorization header. */
  datatype Request = Request(endpoint: string, params: seq<Param>, authorization: string)

  /** A decoded JSON body: `photos` and `total_results`, each possibly absent. */
  datatype Response = Response(photos: Option<seq<Photo>>, totalResults: Option<int>)

  /** What the transport answers: a failed transfer, a body that does not
      decode to a JSON array or object (a scalar or null, which
      `processResult` rejects), or the decoded body. */
  datatype Reply = Failed | Malformed | Decoded(response: Response)

  /** The client: its API key, the page cache keyed by request identifier,
      the by-id photo cache, and the number of requests sent so far. */
  datatype Client = Client(
    apiKey: string,
    pageCache: map<string, PagedResult>,
    photoCache: map<string, Photo>,
    requests: nat)

  /** The outcome of an operation that may touch the network: its result and
      the client state afterwards. */
  datatype Step<T> = Step(result: Result<T>, after: Client)

  /** Every cached page is well formed. */
  predicate WellFormedClient(c: Client) {
    forall k | k in c.pageCache :: WellFormed(c.pageCache[k])
  }

  function NewClient(apiKey: string): (c: Client)
    ensures c.apiKey == apiKey && c.requests == 0
    ensures c.pageCache == map[] && c.photoCache == map[]
    ensures WellFormedClient(c)
  {
    Client(apiKey, map[], map[], 0)
  }

  /** An API key made of PHP whitespace only. */
  predicate IsBlank(apiKey: string) {
    forall i | 0 <= i < |apiKey| :: apiKey[i] in PhpWhitespace
  }

  /** A key is blank exactly when PHP's `trim` leaves nothing of it, which is
      the check `getClient` makes. */
  lemma BlankMeansTrimmedEmpty(apiKey: string)
    ensures IsBlank(apiKey) <==> Trim(apiKey, PhpWhitespace) == ""
  {
  }

  /** The query parameters: `per_page` and `page`, and `query` only for a
      non-empty term. */
  function RequestParameters(pageSize: int, page: int, query: string): (ps: seq<Param>)
    ensures |ps| == if query == "" then 2 else 3
    ensures ps[0] == Param("per_page", IntToString(pageSize))
    ensures ps[1] == Param("page", IntToString(page))
    ensures query != "" ==> ps[2] == Param("query", query)
  {
    [Param("per_page", IntToString(pageSize)), Param("page", IntToString(page))]
      + (if query != "" then [Param("query", query)] else [])
  }

  function ParamValues(ps: seq<Param>): (vs: seq<string>)
    ensures |vs| == |ps|
    ensures forall i | 0 <= i < |ps| :: vs[i] == ps[i].value
  {
    seq(|ps|, i requires 0 <= i < |ps| => ps[i].value)
  }

  /** The three things a cache key records. */
  datatype KeyParts = KeyParts(pageSize: int, page: int, query: string)

  /** Reads a request identifier back into its parts. */
  function ParseCacheKey(k: string): Option<KeyParts> {
    match SplitFirst(k, '_')
    case None => None
    case Some(first) =>
      match ParseInt(first.0)
      case None => None
      case Some(pageSize) =>
        match SplitFirst(first.1, '_')
        case None =>
          (match ParseInt(first.1)
           case None => None
           case Some(page) => Some(KeyParts(pageSize, page, "")))
        case Some(second) =>
          match ParseInt(second.0)
          case None => None
          case Some(page) => Some(KeyParts(pageSize, page, second.1))
  }

  /** The request identifier: the parameter values joined by "_", i.e.
      `per_page_page` or `per_page_page_query`. The query type is not part
      of it. */
  function CacheKey(pageSize: int, page: int, query: string): (k: string)
    ensures k == IntToString(pageSize) + "_" + IntToString(page) + (if query == "" then "" else "_" + query)
  {
    JoinedParameters(pageSize, page, query);
    Implode('_', ParamValues(RequestParameters(pageSize, page, query)))
  }

  /** A request identifier reads back to the page size, the page and the
      query it was made from. */
  lemma CacheKeyReadsBack(pageSize: int, page: int, query: string)
    ensures ParseCacheKey(CacheKey(pageSize, page, query)) == Some(KeyParts(pageSize, page, query))
  {
    ParseJoinedKey(pageSize, page, query);
  }

  lemma JoinedParameters(pageSize: int, page: int, query: string)
    ensures Implode('_', ParamValues(RequestParameters(pageSize, page, query)))
      == IntToString(pageSize) + "_" + IntToString(page) + (if query == "" then "" else "_" + query)
  {
    var vs := ParamValues(RequestParameters(pageSize, page, query));
    var n := IntToString(pageSize);
    var p := IntToString(page);
    if query == "" {
      assert vs == [n, p];
      assert vs[1..] == [p];
    } else {
      assert vs == [n, p, query];
      assert vs[1..] == [p, query];
      assert vs[1..][1..] == [query];
      assert Implode('_', vs[1..]) == p + "_" + query;
    }
  }

  lemma ParseJoinedKey(pageSize: int, page: int, query: string)
    ensures ParseCacheKey(IntToString(pageSize) + "_" + IntToString(page) + (if query == "" then "" else "_" + query))
      == Some(KeyParts(pageSize, page, query))
  {
    var n := IntToString(pageSize);
    var p := IntToString(page);
    assert '_' !in n && '_' !in p by {
      assert forall j | 0 <= j < |n| :: n[j] != '_';
      assert forall j | 0 <= j < |p| :: p[j] != '_';
    }
    if query == "" {
      assert n + "_" + p + "" == n + "_" + p;
      SplitFirstOfJoined(n, p, '_');
    } else {
      assert n + "_" + p + ("_" + query) == n + "_" + (p + "_" + query);
      SplitFirstOfJoined(n, p + "_" + query, '_');
      SplitFirstOfJoined(p, query, '_');
    }
  }

  /** Distinct (page size, page, query) triples never share a cache entry. */
  lemma CacheKeyInjective(n1: int, p1: int, q1: string, n2: int, p2: int, q2: string)
    requires CacheKey(n1, p1, q1) == CacheKey(n2, p2, q2)
    ensures n1 == n2 && p1 == p2 && q1 == q2
  {
    CacheKeyReadsBack(n1, p1, q1);
    CacheKeyReadsBack(n2, p2, q2);
  }

  /** The by-id cache key of a photo: the string form of its id, which is the
      proxy's identifier; a photo without an id has none. */
  function IdKey(p: Photo): (k: Option<string>)
    ensures k.Some? <==> p.id.Some?
    ensures k.Some? ==> k.value == Identifier(AssetProxy(p)) && ParseInt(k.value) == Some(p.id.value)
  {
    if p.id.Some? then Some(Identifier(AssetProxy(p))) else None
  }

  /** Some photo of the sequence has `k` as its id key. */
  ghost predicate SeenIn(photos: seq<Photo>, k: string) {
    exists i | 0 <= i < |photos| :: IdKey(photos[i]) == Some(k)
  }

  /** No later photo of the sequence has the id key of photo `i`. */
  predicate LastWithItsKey(photos: seq<Photo>, i: int)
    requires 0 <= i < |photos|
  {
    forall j | i < j < |photos| :: IdKey(photos[j]) != IdKey(photos[i])
  }

  /** One iteration of the caching loop. */
  function Remember(cache: map<string, Photo>, p: Photo): map<string, Photo> {
    match IdKey(p)
    case Some(k) => cache[k := p]
    case None => cache
  }

  /** The caching loop of `processResult`: every photo with an id is stored
      under its id key and photos without an id are skipped; no key that no
      photo carries changes. Which photo a key ends up holding is
      `CachePhotosKeepsLast`. */
  function CachePhotos(cache: map<string, Photo>, photos: seq<Photo>): (r: map<string, Photo>)
    ensures forall k | k in cache && !SeenIn(photos, k) :: k in r && r[k] == cache[k]
    ensures forall k | k in r :: k in cache || SeenIn(photos, k)
    ensures forall i | 0 <= i < |photos| && photos[i].id.Some? :: IdKey(photos[i]).value in r
    decreases |photos|
  {
    if photos == [] then cache
    else
      var rest := photos[1..];
      assert forall k | SeenIn(rest, k) :: SeenIn(photos, k) by {
        forall k | SeenIn(rest, k) ensures SeenIn(photos, k) {
          var i :| 0 <= i < |rest| && IdKey(rest[i]) == Some(k);
          assert IdKey(photos[i + 1]) == Some(k);
        }
      }
      assert forall i | 0 < i < |photos| :: photos[i] == rest[i - 1];
      CachePhotos(Remember(cache, photos[0]), rest)
  }

  /** A later photo with the same id replaces an earlier one: the cache holds
      the last photo of the page carrying each id. */
  lemma {:induction false} CachePhotosKeepsLast(cache: map<string, Photo>, photos: seq<Photo>, i: int)
    requires 0 <= i < |photos| && photos[i].id.Some? && LastWithItsKey(photos, i)
    ensures CachePhotos(cache, photos)[IdKey(photos[i]).value] == photos[i]
    decreases |photos|
  {
    var rest := photos[1..];
    var k := IdKey(photos[i]).value;
    if i == 0 {
      assert !SeenIn(rest, k) by {
        forall j | 0 <= j < |rest| ensures IdKey(rest[j]) != Some(k) {
          assert rest[j] == photos[j + 1];
        }
      }
    } else {
      assert rest[i - 1] == photos[i];
      assert LastWithItsKey(rest, i - 1) by {
        forall j | i - 1 < j < |rest| ensures IdKey(rest[j]) != IdKey(rest[i - 1]) {
          assert rest[j] == photos[j + 1];
        }
      }
      CachePhotosKeepsLast(Remember(cache, photos[0]), rest, i - 1);
    }
  }

  /** `processResult`: a missing `photos` is an empty page, a missing
      `total_results` is the number of photos, and the photos are remembered
      by id. */
  function ProcessResult(cache: map<string, Photo>, response: Response): (out: (PagedResult, map<string, Photo>))
    ensures response.photos.None? ==> Photos(out.0) == []
    ensures response.photos.Some? ==> Photos(out.0) == response.photos.value
    ensures response.totalResults.Some? ==> TotalResults(out.0) == response.totalResults.value
    ensures response.totalResults.None? ==> TotalResults(out.0) == |Photos(out.0)|
    ensures out.0.position == 0 && ListShaped(out.0) && WellFormed(out.0)
    ensures out.1 == CachePhotos(cache, Photos(out.0))
  {
    var photos := response.photos.GetOr([]);
    var total := response.totalResults.GetOr(|photos|);
    (NewPagedResult(photos, total), CachePhotos(cache, photos))
  }

  /** `executeQuery`: a cached page is returned as is, without a request and
      without looking at the API key; on a miss a blank key fails before any
      request, and otherwise exactly one request is sent and a successful
      answer is cached under the request identifier. The result is that
      identifier, which names the page in the cache. */
  function ExecuteQuery(c: Client, fetch: Request -> Reply, t: QueryType, pageSize: int, page: int, query: string): (r: Step<string>)
    ensures var key := CacheKey(pageSize, page, query);
      && (key in c.pageCache ==> r == Step(Ok(key), c))
      && (key !in c.pageCache && IsBlank(c.apiKey) ==> r == Step(Err(ConfigurationError), c))
      && (key !in c.pageCache && !IsBlank(c.apiKey) ==> r.after.requests == c.requests + 1)
      && (r.result.Ok? ==> r.result.value == key && key in r.after.pageCache)
      && (r.result.Err? ==> r.after.pageCache == c.pageCache && r.after.photoCache == c.photoCache)
      && r.after.pageCache.Keys <= c.pageCache.Keys + {key}
    ensures forall k | k in c.pageCache :: k in r.after.pageCache && r.after.pageCache[k] == c.pageCache[k]
    ensures r.after.apiKey == c.apiKey
    ensures WellFormedClient(c) ==> WellFormedClient(r.after)
    ensures var key := CacheKey(pageSize, page, query);
      key !in c.pageCache && !IsBlank(c.apiKey) ==>
        match fetch(Request(Endpoint(t), RequestParameters(pageSize, page, query), c.apiKey))
        case Failed => r.result == Err(TransferError)
        case Malformed => r.result == Err(DecodeError)
        case Decoded(response) =>
          && r.result.Ok?
          && r.after.pageCache[key] == ProcessResult(c.photoCache, response).0
          && r.after.photoCache == ProcessResult(c.photoCache, response).1
  {
    var params := RequestParameters(pageSize, page, query);
    var key := CacheKey(pageSize, page, query);
    if key in c.pageCache then Step(Ok(key), c)
    else if IsBlank(c.apiKey) then Step(Err(ConfigurationError), c)
    else
      var sent := c.(requests := c.requests + 1);
      match fetch(Request(Endpoint(t), params, c.apiKey))
      case Failed => Step(Err(TransferError), sent)
      case Malformed => Step(Err(DecodeError), sent)
      case Decoded(response) =>
        var (result, photoCache) := ProcessResult(c.photoCache, response);
        Step(Ok(key), sent.(pageCache := c.pageCache[key := result], photoCache := photoCache))
  }

  /** `curated($pageSize, $page)`. */
  function CuratedPage(c: Client, fetch: Request -> Reply, pageSize: int, page: int): (r: Step<string>)
    ensures r == ExecuteQuery(c, fetch, Curated, pageSize, page, "")
  {
    ExecuteQuery(c, fetch, Curated, pageSize, page, "")
  }

  /** `search($query, $pageSize, $page)`. */
  function SearchPage(c: Client, fetch: Request -> Reply, query: string, pageSize: int, page: int): (r: Step<string>)
    ensures r == ExecuteQuery(c, fetch, Search, pageSize, page, query)
  {
    ExecuteQuery(c, fetch, Search, pageSize, page, query)
  }

  /** `findByIdentifier`: a lookup in the by-id cache only. It takes no
      transport and returns no new state, so it sends nothing and changes
      neither cache. */
  function FindByIdentifier(c: Client, identifier: string): (r: Result<Photo>)
    ensures r.Ok? <==> identifier in c.photoCache
    ensures r.Ok? ==> r.value == c.photoCache[identifier]
    ensures r.Err? ==> r.error == NotFound(identifier)
  {
    if identifier in c.photoCache then Ok(c.photoCache[identifier])
    else Err(NotFound(identifier))
  }

  /** Asking again for a page that was fetched successfully sends nothing,
      whatever the transport would answer and whichever endpoint is asked,
      and returns the identical stored page. */
  lemma RepeatedQueryIsCached(
    c: Client, fetch: Request -> Reply, t: QueryType,
    fetch': Request -> Reply, t': QueryType,
    pageSize: int, page: int, query: string)
    requires ExecuteQuery(c, fetch, t, pageSize, page, query).result.Ok?
    ensures var first := ExecuteQuery(c, fetch, t, pageSize, page, query);
      ExecuteQuery(first.after, fetch', t', pageSize, page, query) == first.(after := first.after)
  {
  }

  /** From a miss, two identical requests in a row reach the network once. */
  lemma TwoCallsOneRequest(c: Client, fetch: Request -> Reply, t: QueryType, pageSize: int, page: int, query: string)
    requires CacheKey(pageSize, page, query) !in c.pageCache
    requires ExecuteQuery(c, fetch, t, pageSize, page, query).result.Ok?
    ensures var first := ExecuteQuery(c, fetch, t, pageSize, page, query);
      ExecuteQuery(first.after, fetch, t, pageSize, page, query).after.requests == c.requests + 1
  {
    var first := ExecuteQuery(c, fetch, t, pageSize, page, query);
    RepeatedQueryIsCached(c, fetch, t, fetch, t, pageSize, page, query);
  }

  /** The curated page `(n, p)` and the search for "" with `(n, p)` share one
      cache entry: once either is cached the other is served from it. */
  lemma CuratedSharesEntryWithEmptySearch(c: Client, fetch: Request -> Reply, pageSize: int, page: int)
    requires CuratedPage(c, fetch, pageSize, page).result.Ok?
    ensures var first := CuratedPage(c, fetch, pageSize, page);
      SearchPage(first.after, fetch, "", pageSize, page) == first
  {
    RepeatedQueryIsCached(c, fetch, Curated, fetch, Search, pageSize, page, "");
  }

  /** A failed fetch caches nothing, so the next identical request goes to
      the network again. */
  lemma FailuresAreNotCached(c: Client, fetch: Request -> Reply, t: QueryType, pageSize: int, page: int, query: string)
    requires CacheKey(pageSize, page, query) !in c.pageCache
    requires ExecuteQuery(c, fetch, t, pageSize, page, query).result.Err?
    ensures CacheKey(pageSize, page, query) !in ExecuteQuery(c, fetch, t, pageSize, page, query).after.pageCache
  {
  }

  /** After a page was fetched, every photo on it that has an id can be found
      by its identifier without a request, the last photo on the page with
      that id winning; an identifier neither cached before nor on the page is
      still not found. */
  lemma FetchedPhotosAreFindable(
    c: Client, fetch: Request -> Reply, t: QueryType, pageSize: int, page: int, query: string)
    requires CacheKey(pageSize, page, query) !in c.pageCache
    requires ExecuteQuery(c, fetch, t, pageSize, page, query).result.Ok?
    ensures var after := ExecuteQuery(c, fetch, t, pageSize, page, query).after;
      var photos := Photos(after.pageCache[CacheKey(pageSize, page, query)]);
      && (forall i | 0 <= i < |photos| && photos[i].id.Some? ::
            FindByIdentifier(after, Identifier(AssetProxy(photos[i]))).Ok?)
      && (forall i | 0 <= i < |photos| && photos[i].id.Some? && LastWithItsKey(photos, i) ::
            FindByIdentifier(after, Identifier(AssetProxy(photos[i]))) == Ok(photos[i]))
      && (forall id | id !in c.photoCache && !SeenIn(photos, id) :: FindByIdentifier(after, id) == Err(NotFound(id)))
  {
    var key := CacheKey(pageSize, page, query);
    var after := ExecuteQuery(c, fetch, t, pageSize, page, query).after;
    assert !IsBlank(c.apiKey);
    var response := fetch(Request(Endpoint(t), RequestParameters(pageSize, page, query), c.apiKey)).response;
    var photos := Photos(after.pageCache[key]);
    assert after.pageCache[key] == ProcessResult(c.photoCache, response).0;
    assert after.photoCache == CachePhotos(c.photoCache, photos);
    forall i | 0 <= i < |photos| && photos[i].id.Some? && LastWithItsKey(photos, i)
      ensures FindByIdentifier(after, Identifier(AssetProxy(photos[i]))) == Ok(photos[i])
    {
      CachePhotosKeepsLast(c.photoCache, photos, i);
    }
  }
}

=== FILE: execution.dfy ===
/** `PexelsAssetProxyQuery::execute` and `count`: turn the query into a page
    number and an effective term, ask the client for the curated feed or a
    search, and hand back a cursor over the cached page. */
module ProxyQueryExecution {
  import opened Base
  import opened PhpStrings
  import PagedResults
  import opened PexelsApi
  import opened ProxyQueries
  import opened ProxyQueryResults

  /** The endpoint `execute` chooses for an effective term. */
  function TypeFor(term: string): QueryType {
    if term == "" then Curated else Search
  }

  /** `execute()`. A limit of 0 is PHP's division by zero. Otherwise the page
      is `ceil((offset + 1) / limit)`, an effectively empty term asks the
      curated feed and any other term a search, and a successful answer is a
      cursor over the page cached under the request's key. */
  function Execute(c: Client, fetch: Request -> Reply, defaultTerm: string, q: Query): (r: Step<QueryResult>)
    ensures q.limit == 0 ==> r == Step(Err(DivisionByZero), c)
    ensures q.limit != 0 ==>
      var s := ExecuteQuery(c, fetch, TypeFor(EffectiveTerm(q, defaultTerm)), q.limit, Page(q), EffectiveTerm(q, defaultTerm));
      && r.after == s.after
      && (r.result.Ok? <==> s.result.Ok?)
      && (r.result.Ok? ==> r.result.value == QueryResult(q, CacheKey(q.limit, Page(q), EffectiveTerm(q, defaultTerm))))
      && (r.result.Err? ==> r.result.error == s.result.error)
    ensures r.result.Ok? ==> Live(r.after, r.result.value) && GetQuery(r.result.value) == q
    ensures PexelsApi.WellFormedClient(c) ==> PexelsApi.WellFormedClient(r.after)
  {
    if q.limit == 0 then Step(Err(DivisionByZero), c)
    else
      var page := Page(q);
      var term := EffectiveTerm(q, defaultTerm);
      var s := if term == "" then CuratedPage(c, fetch, q.limit, page)
               else SearchPage(c, fetch, term, q.limit, page);
      match s.result
      case Ok(key) => Step(Ok(QueryResult(q, key)), s.after)
      case Err(e) => Step(Err(e), s.after)
  }

  /** `count()`: executes the query and counts the records of the page it
      lands on, not the total the API reports. */
  function QueryCount(c: Client, fetch: Request -> Reply, defaultTerm: string, q: Query): (r: Step<nat>)
    ensures r.after == Execute(c, fetch, defaultTerm, q).after
    ensures r.result.Ok? <==> Execute(c, fetch, defaultTerm, q).result.Ok?
    ensures r.result.Ok? ==>
      var cursor := Execute(c, fetch, defaultTerm, q).result.value;
      r.result.value == |PagedResults.Photos(PageOf(r.after, cursor))|
    ensures r.result.Err? ==> r.result.error == Execute(c, fetch, defaultTerm, q).result.error
  {
    var s := Execute(c, fetch, defaultTerm, q);
    match s.result
    case Ok(cursor) => Step(Ok(Count(s.after, cursor)), s.after)
    case Err(e) => Step(Err(e), s.after)
  }

  /** The curated feed is asked exactly when the query's term is falsy and
      the default term is empty; otherwise the search endpoint is asked with
      the effective term. */
  lemma CuratedExactlyWhenNoTerm(c: Client, fetch: Request -> Reply, defaultTerm: string, q: Query)
    requires q.limit != 0
    ensures TypeFor(EffectiveTerm(q, defaultTerm)) == Curated <==> IsFalsy(q.searchTerm) && defaultTerm == ""
    ensures IsFalsy(q.searchTerm) && defaultTerm == "" ==>
      Execute(c, fetch, defaultTerm, q).after == CuratedPage(c, fetch, q.limit, Page(q)).after
    ensures !(IsFalsy(q.searchTerm) && defaultTerm == "") ==>
      Execute(c, fetch, defaultTerm, q).after == SearchPage(c, fetch, EffectiveTerm(q, defaultTerm), q.limit, Page(q)).after
  {
    CuratedExactlyWithoutTerm(q, defaultTerm);
  }

  /** A non-negative offset is fetched as page `offset / limit + 1` of size
      `limit`. */
  lemma ExecuteFetchesPageOfOffset(c: Client, fetch: Request -> Reply, defaultTerm: string, q: Query)
    requires q.limit > 0 && q.offset >= 0
    requires Execute(c, fetch, defaultTerm, q).result.Ok?
    ensures Execute(c, fetch, defaultTerm, q).result.value.page
      == CacheKey(q.limit, q.offset / q.limit + 1, EffectiveTerm(q, defaultTerm))
  {
    PageOfNonNegativeOffset(q);
  }

  /** Once the page a query lands on is cached, executing the query sends no
      request, changes nothing, and yields the cursor over that page, whatever
      has happened to the client since the page was fetched. */
  lemma ReexecuteSharesPage(c: Client, fetch: Request -> Reply, defaultTerm: string, q: Query)
    requires q.limit != 0 && CacheKey(q.limit, Page(q), EffectiveTerm(q, defaultTerm)) in c.pageCache
    ensures Execute(c, fetch, defaultTerm, q)
      == Step(Ok(QueryResult(q, CacheKey(q.limit, Page(q), EffectiveTerm(q, defaultTerm)))), c)
  {
  }

  /** In particular, after executing a query and stepping its cursor, executing
      it again yields the same cursor, whose iterator is wherever the first
      cursor left it. */
  lemma ReexecuteAfterNext(c: Client, fetch: Request -> Reply, fetch': Request -> Reply, defaultTerm: string, q: Query)
    requires Execute(c, fetch, defaultTerm, q).result.Ok?
    ensures var first := Execute(c, fetch, defaultTerm, q);
      var moved := Next(first.after, first.result.value);
      var second := Execute(moved, fetch', defaultTerm, q);
      && second.after == moved
      && second.result == first.result
  {
    var first := Execute(c, fetch, defaultTerm, q);
    var moved := Next(first.after, first.result.value);
    ReexecuteSharesPage(moved, fetch', defaultTerm, q);
  }
}

=== FILE: paged_result.dfy ===
/** PexelsQueryResult: one fetched page of photos, kept as PHP keeps it — an
    ArrayObject holding the records, one ArrayIterator over it created at
    construction and handed out on every request, and the total the API
    declared. The iterator's position is therefore part of the page: whoever
    moves it moves it for every other reader of the same page. */
module PagedResults {
  import opened Base
  import opened AssetProxies

  /** One slot of the ArrayObject: its array key and the record stored there. */
  datatype Entry = Entry(key: int, photo: Photo)

  /** The page in insertion order, the iterator's ordinal position, and the
      declared total. */
  datatype PagedResult = PagedResult(entries: seq<Entry>, position: nat, totalResults: int)

  /** Keys are 0, 1, 2, ... in order, as for a decoded JSON list. */
  predicate ListShaped(r: PagedResult) {
    forall i | 0 <= i < |r.entries| :: r.entries[i].key == i
  }

  /** What every reachable page satisfies: the iterator is at most one past
      the end and no key occurs twice. */
  predicate WellFormed(r: PagedResult) {
    && r.position <= |r.entries|
    && forall i, j | 0 <= i < j < |r.entries| :: r.entries[i].key != r.entries[j].key
  }

  /** `new PexelsQueryResult($photos, $totalResults)`. */
  function NewPagedResult(photos: seq<Photo>, total: int): (r: PagedResult)
    ensures Photos(r) == photos && Count(r) == |photos|
    ensures TotalResults(r) == total
    ensures r.position == 0
    ensures ListShaped(r) && WellFormed(r)
  {
    PagedResult(seq(|photos|, i requires 0 <= i < |photos| => Entry(i, photos[i])), 0, total)
  }

  /** `getPhotos()`: the stored records in order. */
  function Photos(r: PagedResult): (ps: seq<Photo>)
    ensures |ps| == |r.entries|
    ensures forall i | 0 <= i < |ps| :: ps[i] == r.entries[i].photo
  {
    seq(|r.entries|, i requires 0 <= i < |r.entries| => r.entries[i].photo)
  }

  /** `getTotalResults()`. */
  function TotalResults(r: PagedResult): int {
    r.totalResults
  }

  /** `getPhotos()->count()`: the number of records on this page. */
  function Count(r: PagedResult): (n: nat)
    ensures n == |Photos(r)|
  {
    |r.entries|
  }

  /** `valid()`: the iterator stands on an element. */
  predicate Valid(r: PagedResult) {
    r.position < |r.entries|
  }

  /** `current()`: the record under the iterator, or null past the end. */
  function Current(r: PagedResult): (p: Option<Photo>)
    ensures p.Some? <==> Valid(r)
    ensures Valid(r) ==> p.value == Photos(r)[r.position]
  {
    if r.position < |r.entries| then Some(r.entries[r.position].photo) else None
  }

  /** `key()`: the array key under the iterator, or null past the end. */
  function Key(r: PagedResult): (k: Option<int>)
    ensures k.Some? <==> Valid(r)
    ensures ListShaped(r) && Valid(r) ==> k.value == r.position
  {
    if r.position < |r.entries| then Some(r.entries[r.position].key) else None
  }

  /** `next()`: one step forward; past the end the iterator stays put. */
  function Next(r: PagedResult): (r': PagedResult)
    ensures r'.entries == r.entries && r'.totalResults == r.totalResults
    ensures Valid(r) ==> r'.position == r.position + 1
    ensures !Valid(r) ==> r'.position == r.position
    ensures WellFormed(r) ==> WellFormed(r')
  {
    if r.position < |r.entries| then r.(position := r.position + 1) else r
  }

  /** `rewind()`: back to the first element. */
  function Rewind(r: PagedResult): (r': PagedResult)
    ensures r'.entries == r.entries && r'.totalResults == r.totalResults
    ensures r'.position == 0
    ensures WellFormed(r) ==> WellFormed(r')
  {
    r.(position := 0)
  }

  /** The ordinal of the first slot holding key `k`, if any. */
  function IndexOf(es: seq<Entry>, k: int): (r: Option<nat>)
    ensures r.Some? ==> r.value < |es| && es[r.value].key == k
    ensures r.Some? ==> forall j | 0 <= j < r.value :: es[j].key != k
    ensures r.None? ==> forall j | 0 <= j < |es| :: es[j].key != k
  {
    if es == [] then None
    else if es[0].key == k then Some(0)
    else match IndexOf(es[1..], k)
      case None => None
      case Some(i) => Some(i + 1)
  }

  /** The slot a key finds depends on the keys alone. */
  lemma {:induction false} IndexOfSameKeys(es: seq<Entry>, es': seq<Entry>, k: int)
    requires |es| == |es'|
    requires forall i | 0 <= i < |es| :: es[i].key == es'[i].key
    ensures IndexOf(es, k) == IndexOf(es', k)
  {
    if es != [] && es[0].key != k {
      IndexOfSameKeys(es[1..], es'[1..], k);
    }
  }

  /** Appending a slot with another key does not change where a key is found. */
  lemma {:induction false} IndexOfAppend(es: seq<Entry>, e: Entry, k: int)
    requires e.key != k
    ensures IndexOf(es + [e], k) == IndexOf(es, k)
  {
    if es != [] && es[0].key != k {
      assert (es + [e])[1..] == es[1..] + [e];
      IndexOfAppend(es[1..], e, k);
    }
  }

  /** `offsetExists($k)`. */
  predicate OffsetExists(r: PagedResult, k: int) {
    IndexOf(r.entries, k).Some?
  }

  /** `offsetGet($k)`: the record under key `k`; PHP yields null for a
      missing key. */
  function OffsetGet(r: PagedResult, k: int): (p: Option<Photo>)
    ensures p.Some? <==> OffsetExists(r, k)
  {
    match IndexOf(r.entries, k)
    case Some(i) => Some(r.entries[i].photo)
    case None => None
  }

  /** `offsetSet($k, $v)`: overwrites the slot of an existing key in place,
      otherwise appends a new slot at the end. */
  function OffsetSet(r: PagedResult, k: int, v: Photo): (r': PagedResult)
    ensures OffsetGet(r', k) == Some(v)
    ensures forall k' | k' != k :: OffsetGet(r', k') == OffsetGet(r, k')
    ensures Count(r') == if OffsetExists(r, k) then Count(r) else Count(r) + 1
    ensures r'.position == r.position && r'.totalResults == r.totalResults
    ensures WellFormed(r) ==> WellFormed(r')
    ensures ListShaped(r) && 0 <= k <= Count(r) ==> ListShaped(r')
  {
    match IndexOf(r.entries, k)
    case Some(i) =>
      var es := r.entries[i := Entry(k, v)];
      IndexOfSameKeys(r.entries, es, k);
      forall k' | k' != k
        ensures OffsetGet(r.(entries := es), k') == OffsetGet(r, k')
      {
        IndexOfSameKeys(r.entries, es, k');
      }
      r.(entries := es)
    case None =>
      var es := r.entries + [Entry(k, v)];
      assert IndexOf(es, k) == Some(|r.entries|) by {
        assert es[|r.entries|].key == k;
      }
      forall k' | k' != k
        ensures OffsetGet(r.(entries := es), k') == OffsetGet(r, k')
      {
        IndexOfAppend(r.entries, Entry(k, v), k');
      }
      OffsetExistsOnList(r, k);
      r.(entries := es)
  }

  /** On a list-shaped page the existing offsets are exactly 0 .. count-1. */
  lemma OffsetExistsOnList(r: PagedResult, k: int)
    ensures ListShaped(r) ==> (OffsetExists(r, k) <==> 0 <= k < Count(r))
    ensures ListShaped(r) && 0 <= k < Count(r) ==> OffsetGet(r, k) == Some(Photos(r)[k])
  {
    if ListShaped(r) && 0 <= k < Count(r) {
      assert r.entries[k].key == k;
    }
  }

  /** `next()` applied `n` times. */
  function Advance(r: PagedResult, n: nat): PagedResult {
    if n == 0 then r else Next(Advance(r, n - 1))
  }

  /** Stepping the iterator keeps the records and the declared total. */
  lemma {:induction false} AdvanceKeepsPage(r: PagedResult, n: nat)
    ensures Advance(r, n).entries == r.entries
    ensures TotalResults(Advance(r, n)) == TotalResults(r)
  {
    if n > 0 {
      AdvanceKeepsPage(r, n - 1);
    }
  }

  /** `getTotalResults()` reports the total the page was built with, however
      far its iterator has been moved and whatever was written into it. */
  lemma TotalResultsAsDeclared(photos: seq<Photo>, total: int, n: nat, k: int, v: Photo)
    ensures TotalResults(Advance(NewPagedResult(photos, total), n)) == total
    ensures TotalResults(OffsetSet(Advance(NewPagedResult(photos, total), n), k, v)) == total
  {
    AdvanceKeepsPage(NewPagedResult(photos, total), n);
  }

  /** A traversal from `rewind()` visits the records of a list-shaped page in
      order under keys 0, 1, ..., and becomes invalid after the last one,
      staying there. */
  lemma {:induction false} TraversalVisitsInOrder(r: PagedResult, n: nat)
    requires ListShaped(r)
    ensures Advance(Rewind(r), n).entries == r.entries
    ensures Advance(Rewind(r), n).position == if n <= Count(r) then n else Count(r)
    ensures n < Count(r) ==> Key(Advance(Rewind(r), n)) == Some(n)
    ensures n < Count(r) ==> Current(Advance(Rewind(r), n)) == Some(Photos(r)[n])
    ensures Valid(Advance(Rewind(r), n)) <==> n < Count(r)
  {
    if n > 0 {
      TraversalVisitsInOrder(r, n - 1);
    }
  }
}

=== FILE: php_strings.dfy ===
/** The PHP string built-ins the asset source relies on, on `seq<char>`:
    the `(string)` cast of an integer, `trim`/`rtrim` with a character list,
    `str_replace`, `end(explode(...))`, `implode`, and the falsy strings. */
module PhpStrings {
  import opened Base

  /** The characters PHP's `trim` strips when no character list is given:
      space, tab, line feed, carriage return, NUL and vertical tab. */
  const PhpWhitespace: set<char> := {' ', '\t', '\n', '\r', '\0', '\U{0B}'}

  /** A string PHP treats as false (`?:`, `empty`): the empty string and "0". */
  predicate IsFalsy(s: string) {
    s == "" || s == "0"
  }

  predicate IsDigit(c: char) {
    '0' <= c <= '9'
  }

  predicate AllDigits(s: string) {
    forall i | 0 <= i < |s| :: IsDigit(s[i])
  }

  function DigitChar(d: int): (c: char)
    requires 0 <= d < 10
    ensures IsDigit(c) && c as int - '0' as int == d
  {
    (d + '0' as int) as char
  }

  function DigitValue(c: char): int
    requires IsDigit(c)
  {
    c as int - '0' as int
  }

  /** Decimal digits of `n`, most significant first, without leading zeros. */
  function NatToString(n: nat): (r: string)
    ensures |r| >= 1 && AllDigits(r)
    ensures r == "0" || r[0] != '0'
    ensures n > 0 ==> r[0] != '0'
  {
    if n < 10 then [DigitChar(n)] else NatToString(n / 10) + [DigitChar(n % 10)]
  }

  /** The number a string of decimal digits denotes. */
  function DigitsValue(s: string): nat
    requires AllDigits(s)
  {
    if |s| == 0 then 0 else DigitsValue(s[..|s| - 1]) * 10 + DigitValue(s[|s| - 1])
  }

  lemma {:induction false} DigitsValueOfNatToString(n: nat)
    ensures DigitsValue(NatToString(n)) == n
  {
    var s := NatToString(n);
    if n < 10 {
      assert s[..|s| - 1] == [];
    } else {
      var a := NatToString(n / 10);
      assert s[..|s| - 1] == a;
      DigitsValueOfNatToString(n / 10);
    }
  }

  /** Reads back an optionally negative decimal integer. */
  function ParseInt(s: string): Option<int> {
    if |s| > 0 && AllDigits(s) then Some(DigitsValue(s))
    else if |s| > 1 && s[0] == '-' && AllDigits(s[1..]) then
      var magnitude: int := DigitsValue(s[1..]);
      Some(-magnitude)
    else None
  }

  /** The canonical decimal form of an integer: "0", or a non-zero leading
      digit, possibly after a minus sign. */
  predicate CanonicalDecimal(r: string) {
    r == "0" || (|r| > 0 && r[0] != '0' && (r[0] == '-' ==> |r| > 1 && r[1] != '0'))
  }

  /** PHP's `(string)` cast of an integer: decimal, with a leading minus sign
      when negative and no leading zeros. It reads back to the same integer,
      and `IntToStringUnique` shows it is the only canonical string that does. */
  function IntToString(i: int): (r: string)
    ensures ParseInt(r) == Some(i)
    ensures CanonicalDecimal(r)
    ensures forall j | 0 <= j < |r| :: IsDigit(r[j]) || r[j] == '-'
    ensures i >= 0 ==> AllDigits(r) && r != ""
    ensures i < 0 ==> r[0] == '-'
  {
    if i < 0 then
      NegativeReadsBack(-i);
      "-" + NatToString(-i)
    else
      DigitsValueOfNatToString(i);
      NatToString(i)
  }

  lemma NegativeReadsBack(n: nat)
    requires n > 0
    ensures var r := "-" + NatToString(n);
      && ParseInt(r) == Some(-(n as int))
      && forall j | 0 <= j < |r| :: IsDigit(r[j]) || r[j] == '-'
  {
    var d := NatToString(n);
    var r := "-" + d;
    DigitsValueOfNatToString(n);
    assert r[0] == '-' && r[1..] == d;
    assert !IsDigit(r[0]);
    assert forall j | 1 <= j < |r| :: r[j] == d[j - 1];
  }

  /** A digit string without a leading zero denotes at least 1. */
  lemma {:induction false} LeadingDigitPositive(s: string)
    requires |s| > 0 && AllDigits(s) && s[0] != '0'
    ensures DigitsValue(s) >= 1
    decreases |s|
  {
    if |s| > 1 {
      var p := s[..|s| - 1];
      assert p[0] == s[0];
      LeadingDigitPositive(p);
    }
  }

  /** Two digit strings without leading zeros that denote the same number are
      the same string. */
  lemma {:induction false} CanonicalDigitsUnique(a: string, b: string)
    requires |a| > 0 && AllDigits(a) && (a == "0" || a[0] != '0')
    requires |b| > 0 && AllDigits(b) && (b == "0" || b[0] != '0')
    requires DigitsValue(a) == DigitsValue(b)
    ensures a == b
    decreases |a| + |b|
  {
    if a == "0" || b == "0" {
      if a != b {
        if a == "0" {
          LeadingDigitPositive(b);
        } else {
          LeadingDigitPositive(a);
        }
      }
    } else {
      var pa, pb := a[..|a| - 1], b[..|b| - 1];
      if |a| == 1 && |b| > 1 {
        assert pb[0] == b[0];
        LeadingDigitPositive(pb);
      } else if |a| > 1 && |b| == 1 {
        assert pa[0] == a[0];
        LeadingDigitPositive(pa);
      } else if |a| > 1 {
        assert pa[0] == a[0] && pb[0] == b[0];
        CanonicalDigitsUnique(pa, pb);
        assert a == pa + [a[|a| - 1]] && b == pb + [b[|b| - 1]];
      }
    }
  }

  /** The canonical string that reads back to `i` is `IntToString(i)`: the
      `(string)` cast is pinned down by the read-back and the canonical form. */
  lemma IntToStringUnique(i: int, s: string)
    requires ParseInt(s) == Some(i) && CanonicalDecimal(s)
    ensures s == IntToString(i)
  {
    var r := IntToString(i);
    if |s| > 0 && AllDigits(s) {
      assert i >= 0;
      CanonicalDigitsUnique(s, r);
    } else {
      var m := s[1..];
      assert m[0] == s[1] && m[0] != '0';
      LeadingDigitPositive(m);
      assert r[0] == '-';
      assert !AllDigits(r) by { assert !IsDigit(r[0]); }
      var n := r[1..];
      assert n[0] == r[1] && n[0] != '0';
      CanonicalDigitsUnique(m, n);
      assert s == [s[0]] + m && r == [r[0]] + n;
    }
  }

  lemma IntToStringInjective(a: int, b: int)
    requires IntToString(a) == IntToString(b)
    ensures a == b
  {
    assert ParseInt(IntToString(a)) == Some(a);
  }

  /** PHP's `rtrim($s, $cs)`: drops every trailing character of `cs`. */
  function TrimRight(s: string, cs: set<char>): (r: string)
    ensures |r| <= |s| && r == s[..|r|]
    ensures forall i | |r| <= i < |s| :: s[i] in cs
    ensures r == "" || r[|r| - 1] !in cs
  {
    if |s| > 0 && s[|s| - 1] in cs then TrimRight(s[..|s| - 1], cs) else s
  }

  /** PHP's `ltrim($s, $cs)`: drops every leading character of `cs`. */
  function TrimLeft(s: string, cs: set<char>): (r: string)
    ensures |r| <= |s| && r == s[|s| - |r|..]
    ensures forall i | 0 <= i < |s| - |r| :: s[i] in cs
    ensures r == "" || r[0] !in cs
  {
    if |s| > 0 && s[0] in cs then TrimLeft(s[1..], cs) else s
  }

  /** PHP's `trim($s, $cs)`: the result is the part of `s` left after
      dropping characters of `cs` from both ends, neither of its ends is in
      `cs`, and it is empty exactly when every character of `s` is in `cs`. */
  function Trim(s: string, cs: set<char>): (r: string)
    ensures exists d :: KeptBetween(s, cs, r, d)
    ensures r == "" || (r[0] !in cs && r[|r| - 1] !in cs)
    ensures forall c | c in r :: c in s
    ensures r == "" <==> forall i | 0 <= i < |s| :: s[i] in cs
  {
    TrimBothEnds(s, cs);
    TrimIsInfix(s, cs);
    TrimLeft(TrimRight(s, cs), cs)
  }

  /** `r` is the infix of `s` starting at `d`, and every character of `s`
      before or after it is in `cs`. */
  predicate KeptBetween(s: string, cs: set<char>, r: string, d: int) {
    && 0 <= d <= |s| - |r|
    && r == s[d..d + |r|]
    && (forall k | 0 <= k < d :: s[k] in cs)
    && (forall k | d + |r| <= k < |s| :: s[k] in cs)
  }

  /** What `trim` keeps is an infix of `s` with only characters of `cs`
      before and after it. */
  lemma TrimIsInfix(s: string, cs: set<char>)
    ensures exists d :: KeptBetween(s, cs, TrimLeft(TrimRight(s, cs), cs), d)
  {
    var t := TrimRight(s, cs);
    var r := TrimLeft(t, cs);
    var d := |t| - |r|;
    assert r == s[d..d + |r|];
    assert forall k | 0 <= k < d :: t[k] == s[k];
    assert KeptBetween(s, cs, r, d);
  }

  lemma TrimBothEnds(s: string, cs: set<char>)
    ensures var r := TrimLeft(TrimRight(s, cs), cs);
      && (r == "" || (r[0] !in cs && r[|r| - 1] !in cs))
      && (forall c | c in r :: c in s)
      && (r == "" <==> forall i | 0 <= i < |s| :: s[i] in cs)
  {
    TrimKeepsEnds(s, cs);
    TrimKeepsCharacters(s, cs);
    TrimEmpty(s, cs);
  }

  lemma TrimKeepsEnds(s: string, cs: set<char>)
    ensures var r := TrimLeft(TrimRight(s, cs), cs);
      r == "" || (r[0] !in cs && r[|r| - 1] !in cs)
  {
    var t := TrimRight(s, cs);
    var r := TrimLeft(t, cs);
    if r != "" {
      assert r[|r| - 1] == t[|t| - 1];
    }
  }

  lemma TrimKeepsCharacters(s: string, cs: set<char>)
    ensures forall c | c in TrimLeft(TrimRight(s, cs), cs) :: c in s
  {
    var t := TrimRight(s, cs);
    var r := TrimLeft(t, cs);
    var d := |t| - |r|;
    forall c | c in r
      ensures c in s
    {
      var j :| 0 <= j < |r| && r[j] == c;
      assert r[j] == t[d + j] == s[d + j];
    }
  }

  lemma TrimEmpty(s: string, cs: set<char>)
    ensures TrimLeft(TrimRight(s, cs), cs) == "" <==> forall i | 0 <= i < |s| :: s[i] in cs
  {
    var t := TrimRight(s, cs);
    var r := TrimLeft(t, cs);
    if r == "" {
      forall i | 0 <= i < |s| ensures s[i] in cs {
        if i < |t| {
          assert s[i] == t[i];
        }
      }
    } else {
      assert r[0] == t[|t| - |r|] == s[|t| - |r|];
    }
  }

  /** `needle` starts at index `i` of `s`. */
  predicate OccursAt(s: string, needle: string, i: int) {
    0 <= i && i + |needle| <= |s| && s[i..i + |needle|] == needle
  }

  lemma OccursAtShift(s: string, needle: string, i: int)
    requires |s| > 0 && 0 <= i
    ensures OccursAt(s[1..], needle, i) <==> OccursAt(s, needle, i + 1)
  {
    if i + |needle| < |s| {
      assert s[1..][i..i + |needle|] == s[i + 1..i + 1 + |needle|];
    }
  }

  /** PHP's `str_replace($needle, $rep, $s)`: scans left to right and replaces
      each non-overlapping occurrence; an empty needle leaves `s` unchanged. */
  function ReplaceAll(s: string, needle: string, rep: string): (r: string)
    ensures needle == "" ==> r == s
    ensures (forall i :: !OccursAt(s, needle, i)) ==> r == s
    ensures forall c | c in r :: c in s || c in rep
    decreases |s|
  {
    if needle == "" || |s| < |needle| then s
    else if s[..|needle|] == needle then
      assert OccursAt(s, needle, 0);
      rep + ReplaceAll(s[|needle|..], needle, rep)
    else
      var tail := ReplaceAll(s[1..], needle, rep);
      assert (forall i :: !OccursAt(s, needle, i)) ==> forall i :: !OccursAt(s[1..], needle, i) by {
        forall i | 0 <= i
          ensures OccursAt(s[1..], needle, i) ==> OccursAt(s, needle, i + 1)
        {
          OccursAtShift(s, needle, i);
        }
      }
      [s[0]] + tail
  }

  /** Replacing stops nowhere inside a prefix where no occurrence starts. */
  lemma {:induction false} ReplaceAllSkipsPrefix(a: string, b: string, needle: string, rep: string)
    requires needle != ""
    requires forall i | 0 <= i < |a| :: !OccursAt(a + b, needle, i)
    ensures ReplaceAll(a + b, needle, rep) == a + ReplaceAll(b, needle, rep)
  {
    if a == [] {
      assert a + b == b;
    } else {
      var s := a + b;
      var tail := a[1..] + b;
      assert s[1..] == tail;
      forall i | 0 <= i < |a[1..]|
        ensures !OccursAt(tail, needle, i)
      {
        OccursAtShift(s, needle, i);
      }
      ReplaceAllSkipsPrefix(a[1..], b, needle, rep);
      ReplaceAllNoMatchAtStart(s, needle, rep);
      ConsPrefix(a, ReplaceAll(s, needle, rep), ReplaceAll(tail, needle, rep), ReplaceAll(b, needle, rep));
    }
  }

  lemma ConsPrefix(a: string, whole: string, rest: string, suffix: string)
    requires |a| > 0 && whole == [a[0]] + rest && rest == a[1..] + suffix
    ensures whole == a + suffix
  {
    assert a == [a[0]] + a[1..];
  }

  lemma ReplaceAllNoMatchAtStart(s: string, needle: string, rep: string)
    requires needle != "" && |s| > 0 && !OccursAt(s, needle, 0)
    ensures ReplaceAll(s, needle, rep) == [s[0]] + ReplaceAll(s[1..], needle, rep)
  {
    if |s| < |needle| {
      assert ReplaceAll(s[1..], needle, rep) == s[1..];
      assert s == [s[0]] + s[1..];
    }
  }

  /** Reference definition for replacing one character by another, pointwise. */
  function ReplaceChar(s: string, from: char, to: char): (r: string)
    ensures |r| == |s|
    ensures forall i | 0 <= i < |s| :: r[i] == if s[i] == from then to else s[i]
  {
    if s == [] then [] else [if s[0] == from then to else s[0]] + ReplaceChar(s[1..], from, to)
  }

  /** Replacing `a` by `b` is undone by replacing `b` by `a` when `b` did
      not occur. */
  lemma ReplaceCharRoundTrip(s: string, a: char, b: char)
    requires b !in s
    ensures ReplaceChar(ReplaceChar(s, a, b), b, a) == s
  {
    var t := ReplaceChar(s, a, b);
    var back := ReplaceChar(t, b, a);
    forall i | 0 <= i < |s| ensures back[i] == s[i] {
      assert s[i] != b;
    }
  }

  /** `str_replace` with a one-character needle and replacement is the
      pointwise replacement. */
  lemma {:induction false} ReplaceAllOneChar(s: string, from: char, to: char)
    ensures ReplaceAll(s, [from], [to]) == ReplaceChar(s, from, to)
  {
    if s != [] {
      ReplaceAllOneChar(s[1..], from, to);
      if s[0] == from {
        assert s[..1] == [from];
      } else {
        assert s[..1] != [from];
      }
    }
  }

  /** `end(explode($sep, $s))`: the part of `s` after its last `sep`, or all
      of `s` when `sep` does not occur. */
  function LastSegment(s: string, sep: char): (r: string)
    ensures |r| <= |s| && r == s[|s| - |r|..]
    ensures sep !in r
    ensures |r| == |s| || s[|s| - |r| - 1] == sep
  {
    if |s| == 0 || s[|s| - 1] == sep then ""
    else
      var r := LastSegment(s[..|s| - 1], sep);
      assert s[..|s| - 1][|s| - 1 - |r|..] + [s[|s| - 1]] == s[|s| - 1 - |r|..];
      r + [s[|s| - 1]]
  }

  lemma {:induction false} LastSegmentAfterSeparator(a: string, b: string, sep: char)
    requires sep !in b
    ensures LastSegment(a + [sep] + b, sep) == b
  {
    var s := a + [sep] + b;
    if b != [] {
      var b' := b[..|b| - 1];
      LastSegmentAfterSeparator(a, b', sep);
      assert s[..|s| - 1] == a + [sep] + b';
      assert b' + [b[|b| - 1]] == b;
    }
  }

  /** PHP's `implode($sep, $parts)`. */
  function Implode(sep: char, parts: seq<string>): string {
    if |parts| == 0 then ""
    else if |parts| == 1 then parts[0]
    else parts[0] + [sep] + Implode(sep, parts[1..])
  }

  /** Splits `s` at its first `sep`, or reports that there is none. */
  function SplitFirst(s: string, sep: char): (r: Option<(string, string)>)
    ensures r.None? <==> sep !in s
    ensures r.Some? ==> s == r.value.0 + [sep] + r.value.1 && sep !in r.value.0
  {
    if |s| == 0 then None
    else if s[0] == sep then
      assert s == [] + [sep] + s[1..];
      Some(([], s[1..]))
    else
      match SplitFirst(s[1..], sep)
      case None => None
      case Some(p) =>
        assert s == [s[0]] + s[1..];
        Some(([s[0]] + p.0, p.1))
  }

  lemma {:induction false} SplitFirstOfJoined(a: string, b: string, sep: char)
    requires sep !in a
    ensures SplitFirst(a + [sep] + b, sep) == Some((a, b))
  {
    var s := a + [sep] + b;
    if a == [] {
      assert s[1..] == b;
    } else {
      SplitFirstOfJoined(a[1..], b, sep);
      assert s[1..] == a[1..] + [sep] + b;
      assert [a[0]] + a[1..] == a;
    }
  }
}

=== FILE: query.dfy ===
/** PexelsAssetProxyQuery: the media browser's paging request — a limit, an
    offset and a search term — and the two decisions `execute` takes from
    them: which page of the API to ask for and whether to ask the curated feed
    or the search endpoint. */
module ProxyQueries {
  import opened PhpStrings

  datatype Query = Query(limit: int, offset: int, searchTerm: string)

  const DefaultLimit := 20

  /** A fresh query: 20 per page, from offset 0, no search term. */
  function NewQuery(): (q: Query)
    ensures GetLimit(q) == 20 && GetOffset(q) == 0 && GetSearchTerm(q) == ""
  {
    Query(DefaultLimit, 0, "")
  }

  function GetLimit(q: Query): int {
    q.limit
  }

  function GetOffset(q: Query): int {
    q.offset
  }

  function GetSearchTerm(q: Query): string {
    q.searchTerm
  }

  function SetOffset(q: Query, offset: int): (q': Query)
    ensures GetOffset(q') == offset
    ensures GetLimit(q') == GetLimit(q) && GetSearchTerm(q') == GetSearchTerm(q)
  {
    q.(offset := offset)
  }

  function SetLimit(q: Query, limit: int): (q': Query)
    ensures GetLimit(q') == limit
    ensures GetOffset(q') == GetOffset(q) && GetSearchTerm(q') == GetSearchTerm(q)
  {
    q.(limit := limit)
  }

  function SetSearchTerm(q: Query, term: string): (q': Query)
    ensures GetSearchTerm(q') == term
    ensures GetLimit(q') == GetLimit(q) && GetOffset(q') == GetOffset(q)
  {
    q.(searchTerm := term)
  }

  /** A query is determined by what its getters report, so setting a field to
      the value it already has changes nothing, and the setters of different
      fields commute. */
  lemma SettersCommute(q: Query, limit: int, offset: int, term: string)
    ensures SetLimit(q, GetLimit(q)) == q && SetOffset(q, GetOffset(q)) == q && SetSearchTerm(q, GetSearchTerm(q)) == q
    ensures SetOffset(SetLimit(q, limit), offset) == SetLimit(SetOffset(q, offset), limit)
    ensures SetSearchTerm(SetLimit(q, limit), term) == SetLimit(SetSearchTerm(q, term), limit)
    ensures SetSearchTerm(SetOffset(q, offset), term) == SetOffset(SetSearchTerm(q, term), offset)
  {
  }

  /** The exact ceiling of the rational `a / b`, which is what PHP's
      `(int)ceil($a / $b)` computes when the quotient is exact in a double. */
  function CeilDiv(a: int, b: int): (r: int)
    requires b != 0
    ensures b > 0 ==> (r - 1) * b < a <= r * b
    ensures b < 0 ==> r * b <= a < (r - 1) * b
  {
    if b > 0 then
      var m := (-a) / b;
      assert m * b <= -a < m * b + b;
      -m
    else
      var m := a / (-b);
      assert m * (-b) <= a < m * (-b) - b;
      -m
  }

  lemma MulMonotone(x: int, y: int, b: int)
    requires x <= y && b >= 0
    ensures x * b <= y * b
  {
    assert y * b - x * b == (y - x) * b;
  }

  /** The ceiling is the only integer with its defining property, for either
      sign of the divisor. */
  lemma CeilDivUnique(a: int, b: int, r: int)
    requires (b > 0 && (r - 1) * b < a <= r * b) || (b < 0 && r * b <= a < (r - 1) * b)
    ensures CeilDiv(a, b) == r
  {
    var c := CeilDiv(a, b);
    if b > 0 {
      if c < r {
        MulMonotone(c, r - 1, b);
      } else if c > r {
        MulMonotone(r, c - 1, b);
      }
    } else {
      if c < r {
        MulMonotone(c, r - 1, -b);
      } else if c > r {
        MulMonotone(r, c - 1, -b);
      }
    }
  }

  /** The page `execute` asks for: `ceil((offset + 1) / limit)`. */
  function Page(q: Query): (p: int)
    requires q.limit != 0
    ensures q.limit > 0 ==> (p - 1) * q.limit <= q.offset < p * q.limit
  {
    CeilDiv(q.offset + 1, q.limit)
  }

  /** For a non-negative offset and a positive limit the page is the 1-based
      number of the window of `limit` items the offset falls in. */
  lemma PageOfNonNegativeOffset(q: Query)
    requires q.offset >= 0 && q.limit > 0
    ensures Page(q) == q.offset / q.limit + 1
    ensures Page(q) >= 1
  {
    var k := q.offset / q.limit;
    assert k * q.limit <= q.offset < (k + 1) * q.limit;
    CeilDivUnique(q.offset + 1, q.limit, k + 1);
  }

  /** Every offset in `k * limit .. (k + 1) * limit - 1` is on page `k + 1`. */
  lemma PageWindow(q: Query, k: int)
    requires q.limit > 0 && k * q.limit <= q.offset < (k + 1) * q.limit
    ensures Page(q) == k + 1
  {
    CeilDivUnique(q.offset + 1, q.limit, k + 1);
  }

  /** The first offset of page `p` is `(p - 1) * limit`: paging forward by
      `limit` items moves to the next page. */
  lemma FirstOffsetOfPage(q: Query, p: int)
    requires q.limit > 0 && q.offset == (p - 1) * q.limit
    ensures Page(q) == p
    ensures Page(SetOffset(q, q.offset + q.limit)) == p + 1
  {
    PageWindow(q, p - 1);
    PageWindow(SetOffset(q, q.offset + q.limit), p);
  }

  /** A fresh query, with or without a term, asks for page 1. */
  lemma NewQueryIsFirstPage(term: string)
    ensures Page(NewQuery()) == 1
    ensures Page(SetSearchTerm(NewQuery(), term)) == 1
  {
    CeilDivUnique(1, 20, 1);
  }

  /** The term `execute` uses: the query's own unless PHP reads it as false
      (`""` or `"0"`), in which case the asset source's default term. */
  function EffectiveTerm(q: Query, defaultTerm: string): (t: string)
    ensures !IsFalsy(q.searchTerm) ==> t == q.searchTerm
    ensures IsFalsy(q.searchTerm) ==> t == defaultTerm
  {
    if IsFalsy(q.searchTerm) then defaultTerm else q.searchTerm
  }

  /** The curated feed is asked exactly when the query has no usable term and
      the default term is empty; a term "0" falls back to the default. */
  lemma CuratedExactlyWithoutTerm(q: Query, defaultTerm: string)
    ensures EffectiveTerm(q, defaultTerm) == "" <==> IsFalsy(q.searchTerm) && defaultTerm == ""
    ensures EffectiveTerm(SetSearchTerm(q, "0"), defaultTerm) == EffectiveTerm(SetSearchTerm(q, ""), defaultTerm)
  {
  }
}

=== FILE: query_result.dfy ===
/** PexelsAssetProxyQueryResult: the cursor the media browser walks. It holds
    a copy of the query and a reference to one cached page; every iterator
    and array-access call is forwarded to that page's single shared iterator,
    and records are wrapped into asset proxies on the way out. The page lives
    in the client's page cache, so a cursor names it by its cache key and every
    call that moves the iterator returns the updated client. */
module ProxyQueryResults {
  import opened Base
  import opened AssetProxies
  import PagedResults
  import opened PexelsApi
  import opened ProxyQueries

  datatype QueryResult = QueryResult(query: Query, page: string)

  /** The cursor's page is in the client's cache. */
  predicate Live(c: Client, r: QueryResult) {
    r.page in c.pageCache
  }

  function PageOf(c: Client, r: QueryResult): PagedResults.PagedResult
    requires Live(c, r)
  {
    c.pageCache[r.page]
  }

  /** The iterator's ordinal position on the cursor's page. */
  function Position(c: Client, r: QueryResult): nat
    requires Live(c, r)
  {
    PageOf(c, r).position
  }

  /** The cursor's page was replaced by `page`; the other pages, the by-id
      cache, the API key and the request count are as before. */
  predicate OnlyPageChanged(c: Client, c': Client, r: QueryResult, page: PagedResults.PagedResult)
    requires Live(c, r)
  {
    && c'.pageCache == c.pageCache[r.page := page]
    && c'.photoCache == c.photoCache && c'.apiKey == c.apiKey && c'.requests == c.requests
  }

  /** `getQuery()`: a copy of the query the cursor was made from; the cursor
      holds its own copy, so changing the returned query cannot reach it. */
  function GetQuery(r: QueryResult): (q: Query)
    ensures q == r.query
  {
    r.query
  }

  /** `valid()`. */
  function Valid(c: Client, r: QueryResult): (b: bool)
    requires Live(c, r)
    ensures b <==> Position(c, r) < Count(c, r)
  {
    PagedResults.Valid(PageOf(c, r))
  }

  /** `current()`: a proxy over the record under the iterator, null past the
      end. */
  function Current(c: Client, r: QueryResult): (p: Option<AssetProxy>)
    requires Live(c, r)
    ensures p.Some? <==> Valid(c, r)
    ensures p.Some? ==> p.value == AssetProxy(PagedResults.Photos(PageOf(c, r))[Position(c, r)])
  {
    match PagedResults.Current(PageOf(c, r))
    case Some(photo) => Some(AssetProxy(photo))
    case None => None
  }

  /** `key()`: the array key under the iterator, null past the end; on a page
      as fetched it is the position. */
  function Key(c: Client, r: QueryResult): (k: Option<int>)
    requires Live(c, r)
    ensures k.Some? <==> Valid(c, r)
    ensures PagedResults.ListShaped(PageOf(c, r)) && k.Some? ==> k.value == Position(c, r)
  {
    PagedResults.Key(PageOf(c, r))
  }

  /** `next()`: moves the shared iterator one step, not past the end. */
  function Next(c: Client, r: QueryResult): (c': Client)
    requires Live(c, r)
    ensures Live(c', r) && PageOf(c', r).entries == PageOf(c, r).entries
    ensures OnlyPageChanged(c, c', r, PageOf(c', r))
    ensures Valid(c, r) ==> Position(c', r) == Position(c, r) + 1
    ensures !Valid(c, r) ==> Position(c', r) == Position(c, r)
    ensures PageOf(c', r).totalResults == PageOf(c, r).totalResults
    ensures PexelsApi.WellFormedClient(c) ==> PexelsApi.WellFormedClient(c')
  {
    c.(pageCache := c.pageCache[r.page := PagedResults.Next(PageOf(c, r))])
  }

  /** `rewind()`: the shared iterator back to the first record. */
  function Rewind(c: Client, r: QueryResult): (c': Client)
    requires Live(c, r)
    ensures Live(c', r) && PageOf(c', r).entries == PageOf(c, r).entries
    ensures OnlyPageChanged(c, c', r, PageOf(c', r))
    ensures Position(c', r) == 0
    ensures PageOf(c', r) == PageOf(c, r).(position := 0)
    ensures PexelsApi.WellFormedClient(c) ==> PexelsApi.WellFormedClient(c')
  {
    c.(pageCache := c.pageCache[r.page := PagedResults.Rewind(PageOf(c, r))])
  }

  /** `offsetExists($k)`: on a page as fetched, exactly 0 .. count-1. */
  function OffsetExists(c: Client, r: QueryResult, k: int): (b: bool)
    requires Live(c, r)
    ensures b <==> PagedResults.OffsetGet(PageOf(c, r), k).Some?
    ensures PagedResults.ListShaped(PageOf(c, r)) ==> (b <==> 0 <= k < Count(c, r))
  {
    PagedResults.OffsetExistsOnList(PageOf(c, r), k);
    PagedResults.OffsetExists(PageOf(c, r), k)
  }

  /** `offsetGet($k)`: a proxy over the record under key `k`. A missing key
      yields null, which the proxy's `array` parameter rejects. */
  function OffsetGet(c: Client, r: QueryResult, k: int): (p: Result<AssetProxy>)
    requires Live(c, r)
    ensures p.Ok? <==> OffsetExists(c, r, k)
    ensures p.Ok? ==> Some(p.value.photo) == PagedResults.OffsetGet(PageOf(c, r), k)
    ensures PagedResults.ListShaped(PageOf(c, r)) && 0 <= k < Count(c, r) ==>
      p == Ok(AssetProxy(PagedResults.Photos(PageOf(c, r))[k]))
    ensures p.Err? ==> p.error == UndefinedOffset(k)
  {
    PagedResults.OffsetExistsOnList(PageOf(c, r), k);
    match PagedResults.OffsetGet(PageOf(c, r), k)
    case Some(photo) => Ok(AssetProxy(photo))
    case None => Err(UndefinedOffset(k))
  }

  /** `getFirst()`: `offsetGet(0)`, so it fails on an empty page instead of
      returning null. */
  function GetFirst(c: Client, r: QueryResult): (p: Result<AssetProxy>)
    requires Live(c, r)
    ensures p == OffsetGet(c, r, 0)
    ensures PagedResults.ListShaped(PageOf(c, r)) ==>
      (p.Ok? <==> Count(c, r) > 0)
      && (p.Ok? ==> p.value == AssetProxy(PagedResults.Photos(PageOf(c, r))[0]))
  {
    OffsetGet(c, r, 0)
  }

  /** `offsetSet($k, $v)`: writes into the shared page, overwriting key `k` or
      appending it. */
  function OffsetSet(c: Client, r: QueryResult, k: int, v: Photo): (c': Client)
    requires Live(c, r)
    ensures Live(c', r) && OnlyPageChanged(c, c', r, PageOf(c', r))
    ensures OffsetGet(c', r, k) == Ok(AssetProxy(v))
    ensures forall k' | k' != k :: OffsetGet(c', r, k') == OffsetGet(c, r, k')
    ensures Position(c', r) == Position(c, r)
    ensures PageOf(c', r).totalResults == PageOf(c, r).totalResults
    ensures PexelsApi.WellFormedClient(c) ==> PexelsApi.WellFormedClient(c')
  {
    c.(pageCache := c.pageCache[r.page := PagedResults.OffsetSet(PageOf(c, r), k, v)])
  }

  /** `offsetUnset()` always throws. */
  function OffsetUnset(c: Client, r: QueryResult, k: int): (e: Result<()>)
    ensures e == Err(NotImplemented)
  {
    Err(NotImplemented)
  }

  /** `toArray()` always throws. */
  function ToArray(c: Client, r: QueryResult): (e: Result<seq<AssetProxy>>)
    ensures e == Err(NotImplemented)
  {
    Err(NotImplemented)
  }

  /** `count()`: the number of records on this page, whatever the API gave as
      the total and wherever the iterator stands. */
  function Count(c: Client, r: QueryResult): (n: nat)
    requires Live(c, r)
    ensures n == |PagedResults.Photos(PageOf(c, r))|
  {
    PagedResults.Count(PageOf(c, r))
  }

  /** `count()` is untouched by moving the iterator. */
  lemma CountIgnoresPosition(c: Client, r: QueryResult)
    requires Live(c, r)
    ensures Count(Next(c, r), r) == Count(c, r)
    ensures Count(Rewind(c, r), r) == Count(c, r)
  {
  }

  /** Two cursors over the same cached page share one iterator: moving either
      moves the other. */
  lemma SharedIterator(c: Client, r1: QueryResult, r2: QueryResult)
    requires Live(c, r1) && r2.page == r1.page
    ensures Valid(c, r1) ==> Position(Next(c, r1), r2) == Position(c, r2) + 1
    ensures Position(Rewind(c, r1), r2) == 0
  {
  }

  /** On a page as fetched, rewinding and stepping `n` times stands on record
      `n` with key `n`, and the walk ends after `count()` steps. */
  lemma {:induction false} WalkFromRewind(c: Client, r: QueryResult, n: nat)
    requires Live(c, r) && PagedResults.ListShaped(PageOf(c, r))
    ensures Live(Walk(Rewind(c, r), r, n), r)
    ensures n < Count(c, r) ==>
      && Key(Walk(Rewind(c, r), r, n), r) == Some(n)
      && Current(Walk(Rewind(c, r), r, n), r) == Some(AssetProxy(PagedResults.Photos(PageOf(c, r))[n]))
    ensures Valid(Walk(Rewind(c, r), r, n), r) <==> n < Count(c, r)
  {
    WalkIsAdvance(Rewind(c, r), r, n);
    PagedResults.TraversalVisitsInOrder(PageOf(c, r), n);
  }

  /** `next()` called `n` times. */
  function Walk(c: Client, r: QueryResult, n: nat): (c': Client)
    requires Live(c, r)
    ensures Live(c', r)
    ensures c'.photoCache == c.photoCache && c'.requests == c.requests
    decreases n
  {
    if n == 0 then c else Next(Walk(c, r, n - 1), r)
  }

  lemma {:induction false} WalkIsAdvance(c: Client, r: QueryResult, n: nat)
    requires Live(c, r)
    ensures PageOf(Walk(c, r, n), r) == PagedResults.Advance(PageOf(c, r), n)
  {
    if n > 0 {
      WalkIsAdvance(c, r, n - 1);
    }
  }
}

=== FILE: repository.dfy ===
/** PexelsAssetProxyRepository: the entry points the media browser calls. All
    listing goes through a fresh default query; lookups by identifier only
    consult the client's by-id cache. */
module ProxyRepository {
  import opened Base
  import opened AssetProxies
  import opened PexelsApi
  import opened ProxyQueries
  import opened ProxyQueryResults
  import opened ProxyQueryExecution
  import PagedResults

  /** The number of assets the repository claims to hold. */
  const AssumedTotal := 40000

  /** `getAssetProxy($identifier)`: a proxy over a photo some earlier page
      carried, without a request; an identifier never seen is not found. */
  function GetAssetProxy(c: Client, identifier: string): (r: Result<AssetProxy>)
    ensures r.Ok? <==> identifier in c.photoCache
    ensures r.Ok? ==> r.value == AssetProxy(c.photoCache[identifier])
    ensures r.Err? ==> r.error == NotFound(identifier)
  {
    match FindByIdentifier(c, identifier)
    case Ok(photo) => Ok(AssetProxy(photo))
    case Err(e) => Err(e)
  }

  /** `findAll()`: a fresh query, executed. */
  function FindAll(c: Client, fetch: Request -> Reply, defaultTerm: string): (r: Step<QueryResult>)
    ensures r.result.Ok? ==> r.result.value.query == NewQuery()
  {
    Execute(c, fetch, defaultTerm, NewQuery())
  }

  /** `findBySearchTerm($term)`: a fresh query with that term, executed. */
  function FindBySearchTerm(c: Client, fetch: Request -> Reply, defaultTerm: string, term: string): (r: Step<QueryResult>)
    ensures r.result.Ok? ==> r.result.value.query == SetSearchTerm(NewQuery(), term)
  {
    Execute(c, fetch, defaultTerm, SetSearchTerm(NewQuery(), term))
  }

  /** `findByTag($tag)`: tags are not supported, so this is `findAll()`. */
  function FindByTag<Tag>(c: Client, fetch: Request -> Reply, defaultTerm: string, tag: Tag): (r: Step<QueryResult>)
    ensures r == FindAll(c, fetch, defaultTerm)
  {
    FindAll(c, fetch, defaultTerm)
  }

  /** `findUntagged()`: likewise `findAll()`. */
  function FindUntagged(c: Client, fetch: Request -> Reply, defaultTerm: string): (r: Step<QueryResult>)
    ensures r == FindAll(c, fetch, defaultTerm)
  {
    FindAll(c, fetch, defaultTerm)
  }

  /** `countAll()`: a fixed figure, whatever has been fetched. */
  function CountAll(c: Client): (n: int)
    ensures n == 40000
  {
    AssumedTotal
  }

  /** `findAll()` asks for page 1 of 20 of the default term: the curated feed
      when that term is empty, a search for it otherwise. */
  lemma FindAllIsFirstPage(c: Client, fetch: Request -> Reply, defaultTerm: string)
    ensures FindAll(c, fetch, defaultTerm).after
      == ExecuteQuery(c, fetch, TypeFor(defaultTerm), 20, 1, defaultTerm).after
    ensures FindAll(c, fetch, defaultTerm).result.Ok? ==>
      FindAll(c, fetch, defaultTerm).result.value.page == CacheKey(20, 1, defaultTerm)
  {
    NewQueryIsFirstPage("");
    assert EffectiveTerm(NewQuery(), defaultTerm) == defaultTerm;
  }

  /** Searching for a term PHP reads as false is `findAll()`: the same state
      afterwards and a cursor over the same page. Any other term is page 1 of
      20 of a search for exactly that term, with its outcome. */
  lemma FindBySearchTermFallsBack(c: Client, fetch: Request -> Reply, defaultTerm: string, term: string)
    ensures var r := FindBySearchTerm(c, fetch, defaultTerm, term);
      var a := FindAll(c, fetch, defaultTerm);
      term == "" || term == "0" ==>
        && r.after == a.after
        && (r.result.Ok? <==> a.result.Ok?)
        && (r.result.Ok? ==> r.result.value.page == a.result.value.page)
        && (r.result.Err? ==> r.result.error == a.result.error)
    ensures var r := FindBySearchTerm(c, fetch, defaultTerm, term);
      var s := ExecuteQuery(c, fetch, Search, 20, 1, term);
      term != "" && term != "0" ==>
        && r.after == s.after
        && (r.result.Ok? <==> s.result.Ok?)
        && (r.result.Ok? ==> r.result.value.page == CacheKey(20, 1, term))
        && (r.result.Err? ==> r.result.error == s.result.error)
  {
    var q := SetSearchTerm(NewQuery(), term);
    NewQueryIsFirstPage(term);
    if term == "" || term == "0" {
      assert EffectiveTerm(q, defaultTerm) == EffectiveTerm(NewQuery(), defaultTerm);
    } else {
      assert EffectiveTerm(q, defaultTerm) == term;
      assert TypeFor(term) == Search;
    }
  }

  /** Every photo a listing fetched can be opened by its identifier
      afterwards, without another request. */
  lemma ListedPhotosCanBeOpened(c: Client, fetch: Request -> Reply, defaultTerm: string)
    requires CacheKey(20, 1, defaultTerm) !in c.pageCache
    requires FindAll(c, fetch, defaultTerm).result.Ok?
    ensures var s := FindAll(c, fetch, defaultTerm);
      var photos := PagedResults.Photos(PageOf(s.after, s.result.value));
      forall i | 0 <= i < |photos| && photos[i].id.Some? ::
        GetAssetProxy(s.after, Identifier(AssetProxy(photos[i]))).Ok?
  {
    FindAllIsFirstPage(c, fetch, defaultTerm);
    var t := TypeFor(defaultTerm);
    assert ExecuteQuery(c, fetch, t, 20, 1, defaultTerm).result.Ok?;
    FetchedPhotosAreFindable(c, fetch, t, 20, 1, defaultTerm);
  }
}
